=== FILE: README.md ===
# pure-webserver core, modelled in Dafny

This project models the three pieces of sequential logic beneath the I/O of a
small Go web server that stores toy products.

1. **The embedded document store** (`pkg/database/database.go`).
   - The persisted image maps each collection name to its record list. It
     also maps each collection name to its identity counter (`DataIndexes`).
   - Reading the image heals an undecodable file to the empty image.
   - Collections are created lazily.
   - A create mints the identity `counter + 1`, stamps both times, appends the
     record and bumps the counter.
   - A fetch returns the stored list.
   - `Where` is the single-field, same-kind equality filter, and `All` passes
     records through.
   - `UpdateCollection` is the bulk replace. It stores under the
     `"*"`-prefixed type name, seeds the new list from the collection keyed
     `"string"`, and needs a non-empty list when handed a pointer.
2. **The HTTP route matcher** (`pkg/httpEngine/engine.go`).
   - Registration appends to the route table.
   - Trailing-slash normalisation, splitting on `/`, and segment matching
     where any segment containing `:` is a wildcard.
   - Filtering by method, and the rule that a handler is dispatched only when
     exactly one route survives both filters.
   - URL parameter extraction, and `GetURLParam`.
   - The route table of `controller/httpEngine.go` serves as a worked example
     (module `RouterExamples`).
3. **The product repository** (`repository/productRepository.go`).
   - Lookup by `iid`, and create.
   - The update and delete list rewrites keyed on `iid`, which feed the
     store's bulk replace.

Effects become values.
- Reading the backing file is a parameter (`Store.ReadOutcome`: unreadable, or
  read with or without a decodable image).
- Writing it is returning the new image.
- `time.Now` is a `now` parameter.
- A Go panic on the modelled paths becomes a precondition or an error variant:
  - `Products.RepoError.NilRecord`;
  - `NilList`;
  - `EmptyReplacement`.

Modules:
- `Wrappers`: `Option` and `Result`.
- `Decimal`: `strconv.Itoa` and a parser as its partner.
- `Text`: `strings.Split`/`Join` and `ReplaceAll` of one character.
- `Values`: decoded JSON values and their `reflect.Kind`. Floats are IEEE
  binary64 bit patterns with Go's `==`.
- `Subsequences`: order-preserving filtering.
- `Store`: the document store.
- `Query`: `Where` and `All`.
- `Router`: the route matcher.
- `RouterExamples`: the controller's route table.
- `Products`: the repository.

The model follows the code where it departs from the store's evident design.
- A bulk replace evidently means substituting the collection's contents. The
  code instead stores under the `"*"`-prefixed name. It seeds that list with
  `Items["string"]`, because `getCollectionName(tmpName)` takes the type name
  of a string. It also ensures the collection named by the element type, which
  can reset a counter that has no items list.
- Identities survive a replace only when the caller carries them forward.
- A product's own `id` field shadows the embedded `DbModel.Id` in JSON. The
  store mints the identity into `DbModel.Id`, and its round trip through JSON
  copies it into the product's own `id`, which is what the record carries. On
  the way back the record's `id` fills the product's own `id` again, so the
  minted identity survives there. The embedded `DbModel.Id` is never written
  and reads back empty. `Products.Visible` models that loss.

## Model

| member | source | states |
|---|---|---|
| Store.ReadDatabase | pkg/database/database.go:67-78 | An unreadable file is the read error itself. A file whose content does not decode heals to the empty image, with no error. A decodable file gives its image. |
| Store.EnsureCollection | pkg/database/database.go:105-117 | Afterwards the name is a collection. An existing collection leaves the image exactly as it was. A new one gets an empty list and counter 0. No other collection or counter changes. |
| Store.GetCollections | pkg/database/database.go:94-119 | Fails exactly when the file cannot be read. Otherwise the result is the ensure step on the image read: the named collection exists and holds the records that were stored under it, and every other collection and counter, and the total, are as read. |
| Store.StampCreated | pkg/database/database.go:133-137 | The stamped record has the input's keys plus the three bookkeeping keys. It carries the given identity and `now` as both times. Every other field is as given. |
| Store.Create | pkg/database/database.go:133-148 | The record is stamped with the decimal text of the previous counter + 1, where an absent collection counts as 0. It is appended after the existing records, and the counter becomes exactly previous + 1. Every other collection and counter, and the total, are unchanged. |
| Store.WriteToCollection | pkg/database/database.go:127-150 | Fails exactly when the file cannot be read. Otherwise the result is the create on the image read, so everything `Store.Create` states holds: the record is the input stamped with the next identity and `now`, the counter is bumped, and every other collection, counter and the total are unchanged. The collection becomes its old records plus that record at the end, and the record carries identity counter + 1, or "1" for a new collection. |
| Store.GetFromCollection | pkg/database/database.go:190-203 | Fails exactly when the file cannot be read. Otherwise it returns the stored records in order, with an absent collection read as empty. It hands back no image, so a fetch writes nothing. |
| Store.StarName | pkg/database/database.go:166-169 | The result always starts with `*`. A name already starting with `*` is kept, and any other name gets `*` prepended. |
| Store.StampAllUpdated | pkg/database/database.go:173-182 | One record per supplied record, in the supplied order, each carrying `updated_at = now` with every other field as supplied. |
| Store.Replace | pkg/database/database.go:156-183 | The collection named by the argument's type is ensured. The `"*"`-prefixed name then holds the `"string"` collection's records followed by the stamped list. Counters are exactly those after the ensure step. No other collection changes. |
| Store.UpdateCollection | pkg/database/database.go:153-187 | Fails exactly when the file cannot be read. Otherwise the written image is the replace applied to the image read. A pointer argument requires a non-empty list. |
| Store.ReplaceWithoutStringCollection | pkg/database/database.go:166-183 | With no `"string"` collection, the stored list is exactly the stamped replacement list. |
| Store.ReplaceThenFetch | pkg/database/database.go:166-203 | After a replace, a fetch of the `"*"` collection returns one record per supplied record. Each agrees with what was supplied on every field except `updated_at`, so identities are kept and nothing left out comes back. |
| Store.CreateThenFetch | pkg/database/database.go:133-148 | A fetch after a create returns the earlier records followed by the new one. The new record differs from the input only in the bookkeeping fields. |
| Store.CorruptImageCreatesFirstIdentity | pkg/database/database.go:67-78 | A create on an undecodable file succeeds. It mints identity "1", and the image becomes that one collection with its one record and counter 1. |
| Store.StampedRunAt | pkg/database/database.go:133-148 | Position `i` of a run of creates after counter `last` is record `i` stamped with identity `last + i + 1`. |
| Store.CreateAllAppends | pkg/database/database.go:133-148 | A run of creates on an existing collection appends the stamped records in call order, minting counter + 1, counter + 2, and so on. The counter advances by the number of records. |
| Store.CreateAllLeavesOthers | pkg/database/database.go:145-148 | A run of creates on one collection leaves every other collection and counter as it was. |
| Store.FreshCollectionIdentities | pkg/database/database.go:105-148 | N creates on a new collection store N records. Record `i` is the `i`-th input stamped with identity `i + 1`, so the identities run "1".."N" in call order. |
| Decimal.Itoa | pkg/database/database.go:135 | The text is non-empty. It starts with `-` exactly for negative numbers and is all digits otherwise. |
| Decimal.ParseItoa | pkg/database/database.go:135 | Parsing the decimal text of any integer gives that integer back. |
| Decimal.ItoaInjective | pkg/database/database.go:135 | Two integers have the same decimal text exactly when they are equal, so distinct counters mint distinct identities. |
| Text.JoinSplit | pkg/httpEngine/engine.go:140-141 | Joining the pieces of a split with the separator rebuilds the input. |
| Text.RemoveAllConcat | pkg/httpEngine/engine.go:123 | Removing every `:` from a parameter segment works piece by piece, so the kept characters stay in their order. Together with the contract of `Text.RemoveAll` (no `:` is left, every other character keeps its count, and `:`-free text is unchanged) this fixes the parameter name. |
| Text.SplitJoin | pkg/httpEngine/engine.go:140-141 | Splitting a join of separator-free pieces gives the pieces back. |
| Query.WhereScan | pkg/database/database.go:206-249 | The loop with its kind switch returns exactly the records the filter's admission rule keeps, in order. It requires a non-null value and no null record, the cases where the kind lookup crashes. |
| Query.WhereIsSubsequence | pkg/database/database.go:206-249 | The result is an order-preserving subsequence of the input. |
| Query.WhereCounts | pkg/database/database.go:209-239 | An admitted record occurs as often as in the input, and any other record not at all. Non-maps, missing, null or differently-kinded fields, and unequal values are dropped with no error. |
| Query.WhereMembership | pkg/database/database.go:209-239 | A record is in the result exactly when it is in the input and admitted. |
| Query.AllIsUnfilteredWhere | pkg/database/database.go:251-254 | `All` is the filter whose test admits every record: it returns every record, in order, with none dropped. |
| Query.WhereNaNKeepsNothing | pkg/database/database.go:226-229 | A NaN filter value matches nothing, because float comparison is IEEE equality. |
| Router.AddHandler | pkg/httpEngine/engine.go:79-86 | Exactly one route is appended at the end, and earlier routes are unchanged. |
| Router.Normalize | pkg/httpEngine/engine.go:134-139 | The result ends in `/`. A path already ending in `/` is kept, and any other path gets one `/` appended. |
| Router.MatchSegments | pkg/httpEngine/engine.go:144-150 | True exactly when every route segment equals the request segment at its position or contains `:`. |
| Router.FilterRoutesByPath | pkg/httpEngine/engine.go:130-157 | The loop returns exactly the normalised routes whose path matches, in registration order. |
| Router.NormalizedRouteMatchesAlike | pkg/httpEngine/engine.go:137-139 | Normalising a route's path does not change which requests it matches. |
| Router.MatchingRoutesShape | pkg/httpEngine/engine.go:137-152 | Every returned route ends in `/` and matches the request. |
| Router.MatchingRoutesMembership | pkg/httpEngine/engine.go:130-157 | A route is returned exactly when it is the normalised form of a registered route whose path matches. |
| Router.TrailingSlashIgnored | pkg/httpEngine/engine.go:134-136 | A request path and the same path with a trailing `/` select the same routes. |
| Router.FilterByMethodMembership | pkg/httpEngine/engine.go:160-168 | A route survives the method filter exactly when it was a candidate with the request's method. |
| Router.FilterByMethodIsSubsequence | pkg/httpEngine/engine.go:160-168 | The method filter keeps the candidates' order. |
| Router.ExtractURLParams | pkg/httpEngine/engine.go:115-127 | The loop builds the parameter map of the route and request segments: one entry per `:`-segment, with a later duplicate winning. |
| Router.ParamKeys | pkg/httpEngine/engine.go:119-124 | The parameter names are exactly the route's `:`-segments with every `:` removed. |
| Router.ParamValueLastWins | pkg/httpEngine/engine.go:119-124 | A parameter's value is the request segment at the last route position that declares that name. |
| Router.MainEngineHandler | pkg/httpEngine/engine.go:89-112 | A handler is dispatched exactly when exactly one path-matching route has the request's method. The dispatched route is that survivor, and it ends in `/`. Its parameters are extracted from the request, within the request's bounds. |
| Router.DispatchIffUniqueRoute | pkg/httpEngine/engine.go:93-105 | Dispatch happens exactly when one registered route both matches the path and has the method, and the route handed over is that route, normalised. |
| Router.DispatchedParamsInRange | pkg/httpEngine/engine.go:121-123 | The bounds check that extraction omits is never needed for a dispatched route, whether or not the request has a trailing slash. |
| Router.GetURLParam | pkg/httpEngine/engine.go:171-176 | A missing key and an empty value are both the `NoParam` error. Otherwise the stored value is returned. |
| RouterExamples.PutSelectsCreate | controller/httpEngine.go:39-43 | With the server's route table, `PUT /v1/toys/<id>` dispatches the create route with parameters `{iid: <id>}`, and `GetURLParam("iid")` returns the id. |
| RouterExamples.GetListSelectsGetAll | controller/httpEngine.go:39-43 | `GET /v1/toys` dispatches the list route with no parameters. |
| RouterExamples.PostIsNotFound | controller/httpEngine.go:39-43 | No request with method POST is dispatched. |
| RouterExamples.ListAndItemDisjoint | controller/httpEngine.go:39-40 | No request matches both the list path and the item path. |
| Products.Decode | domain/productModel.go:5-12 | A null record reads as the zero product, and a non-object is a decode error. A read-back product never carries the embedded identity. The `iid` comes from the record's `iid` string. |
| Products.DecodeAll | repository/productRepository.go:60-67 | Succeeds exactly when every record decodes, giving one product per record in order. |
| Products.DecodeEncode | domain/productModel.go:5-12 | Writing a product and reading it back gives the product without its embedded identity, which the shadowing `id` field hides. Writing the two is the same. |
| Products.DecodeObjects | repository/productRepository.go:60-67 | A list of written products reads back as the same list, each without its embedded identity. |
| Products.GetProductByID | repository/productRepository.go:45-69 | A fetch error comes back as is. The `NoData` error happens exactly when the collection is empty. Every product returned has the requested `iid`. |
| Products.GetByIdFindsExactly | repository/productRepository.go:52-67 | Over a collection of written products, the lookup returns exactly the products with that `iid`, in stored order. |
| Products.CreateProduct | repository/productRepository.go:72-75 | The caller gets back its own product, stamped with the store's next identity and `now`. It is appended at the end of the product collection. On an unreadable file the product comes back untouched with the error. |
| Products.CreateThenGetById | repository/productRepository.go:45-75 | After a create, a lookup of the new product's `iid` finds the earlier products with that `iid`, followed by the new one. |
| Products.ScanPerIteration | repository/productRepository.go:112-122 | With a fresh loop variable per iteration, every product with the input's `iid` takes its name, brand, company and update time. All other fields and all other products are kept, and the length and order are unchanged. |
| Products.PerIterationReturnsLastMatch | repository/productRepository.go:119-127 | With a fresh loop variable, the caller gets back the last matching product, updated, or its own input when nothing matched. |
| Products.ScanShared | repository/productRepository.go:112-122 | With one shared loop variable, only the first product with the input's `iid` is updated. Every later product is kept as fetched. |
| Products.UpdateFirstAt | repository/productRepository.go:112-122 | Position by position, the shared-variable list differs from the fetched list only at the first match, which carries the update. |
| Products.SharedReturnsLast | repository/productRepository.go:119-127 | With the shared loop variable, the caller gets back the last product of the list whenever anything matched, and its own input otherwise. |
| Products.SharedVariableReturnsWrongProduct | repository/productRepository.go:112-127 | For two products where only the first matches: the shared variable hands back the second, untouched product, and a fresh variable per iteration hands back the updated first one. |
| Products.ScanLength | repository/productRepository.go:110-123 | The list handed to the bulk replace has one product per fetched product, under either loop-variable rule. |
| Products.UpdateProduct | repository/productRepository.go:96-128 | The fetch and the bulk replace each read the file. A fetch error returns the input with no replace. An empty collection is the nil-list crash. A decode error returns the input with that error. When the second read fails after the loop has run, nothing is replaced, but the caller gets what the loop's pointer ended on, together with the error. When the second read succeeds, the replace is always made: the written image is the bulk replace of the second image read, with the loop's list, and the caller gets what the loop's pointer ends on. |
| Products.UpdateRereadFails | repository/productRepository.go:112-126 | Over written products, a failed second read leaves the store unwritten, yet returns the product the loop ended on rather than the caller's input. |
| Products.UpdateStoresLoopList | repository/productRepository.go:96-128 | Over written products with no `"string"` collection, the product collection becomes the loop's list, with each product touched with `now`. |
| Products.DeleteProduct | repository/productRepository.go:131-155 | The fetch and the bulk replace each read the file. A fetch error is returned with no replace. An empty collection is the nil-list crash. A decode error is returned as it is. When no product is left, the store crashes on the empty replacement list. When some product is left, a failed second read is returned as the error, with no replace. A successful second read always leads to the replace: the written image is the bulk replace of the second image read, with the products whose `iid` differs. |
| Products.RemainingIsExact | repository/productRepository.go:146-152 | The products kept are exactly those with another `iid`, as an order-preserving subsequence of the fetched list. |
| Products.RemainingEmptyIff | repository/productRepository.go:146-152 | Nothing is left exactly when every fetched product has the deleted `iid`. |
| Products.DeleteFailsIffAllMatch | repository/productRepository.go:131-155 | The delete crashes on the empty replacement list exactly when every product has the deleted `iid`. Otherwise the replace is made. |
| Products.DeleteRemovesExactly | repository/productRepository.go:131-155 | After a delete that writes, the collection holds exactly the other products, touched with `now`, and a lookup of the deleted `iid` finds nothing. |

## Left out

- File I/O: `ioutil.ReadFile` and `WriteFile` are not modelled. A read is the `ReadOutcome` parameter, and a write is the returned image. A write failure is not modelled, so every write succeeds.
- Store.Create: the counter is an unbounded integer. In the source, `lastId + 1` is a 64-bit `int` add that wraps at 2^63 - 1 and would mint `"-9223372036854775808"`. A stored counter outside the 64-bit range also makes the whole file fail to decode, which heals it to the empty image. The same unbounded counter underlies `Store.WriteToCollection`, `Store.CreateAllAppends` and `Store.FreshCollectionIdentities`.
- Store.CreateThenFetch: a written record reads back with its values unchanged, integer fields included. In the source the write marshals the image to JSON and the next read decodes every number as a `float64`, so an `Int` or `Uint` field would come back as a `Float` and no longer match an integer in `Where`. The model's write keeps machine integers. The product records the repository writes hold only strings, booleans and null, so the repository lemmas are unaffected.
- Store.ReplaceThenFetch: the same holds for a replaced list. Integer fields come back unchanged in the model, where the source would read them back as `float64`.
- Logging: the `log.Print` calls in repository/productRepository.go (lines 58, 62, 86, 104 and 140) are not modelled. They write diagnostics and change no result. A marshal error that is only logged is not modelled either, since marshalling the decoded values cannot fail here.
- Time: `time.Now` is one `now` parameter per operation, so `created_at` and `updated_at` of one create get the same instant. Timestamps are opaque RFC 3339 strings.
- Concurrency: the `sync.RWMutex` and the lost updates it fails to prevent are not modelled. The two file reads of an update or delete are separate parameters. For a file changed between them, the contracts state what is written: the loop runs over the first image, and the replace is made on the second. No interleaving with other writers is modelled.
- Reflection: collection names are passed as the type names `reflect` would give (`*domain.Product`, `domain.Product`, `string`). Only the `"*"`-prefix rule and the `"string"` key lookup are modelled as string functions.
- JSON: the wire encoding is abstracted to decoded values, with these limits:
  - keys match case-sensitively, where Go's decoder folds case;
  - a failed decode gives no partial result;
  - numbers are arbitrary-precision integers or float bit patterns. Go decodes every JSON number into an untyped `float64`, so `Values.Int` and `Values.Uint` never come from a read; they stand for values the caller passes in.
- Query.WhereScan: a non-null filter value and non-null records are required. The source crashes on a null value, and on a null record it asks for the kind of nil. Go's type assertions in the switch (`value.(int64)` on a plain `int`) are not modelled: integers of every width are one kind.
- Store: a stored image whose `items` has a name but whose `data_indexes` map is nil crashes the source. It is not modelled, because Dafny maps are never nil.
- Router.ExtractURLParams: requires the request to have a segment at each `:`-position. The source indexes without a bounds check and would crash. `Router.DispatchedParamsInRange` shows that a dispatched request always meets this requirement.
- HTTP plumbing is not modelled: `StartServer`, `JSON`, `BindToJson`, `ErrorHandler`, the handlers and the `http.NotFound` response body. Dispatch yields the route and parameters, or `NotFound`.
- `GetAllProducts` (repository/productRepository.go:78-93) is a fetch followed by a decode. It is covered by `Store.GetFromCollection` and `Products.DecodeAll`, and has no member of its own.
- logic/ProductLogic.go is a pass-through and is not modelled.
- The text of the error constants (`NoData`, `NoParam`) is not part of this model. The errors are datatype variants.
- The `go` directive of the module's go.mod decides the loop-variable rule, and that file is not part of this model. `UpdateProduct` takes the rule as a parameter (`LoopVarScope`), and both rules are modelled.

## Findings

| source | as written | input that shows it | evidently intended | confidence | as-written member | corrected member |
|---|---|---|---|---|---|---|
| repository/productRepository.go:112-127 | Under Go's shared loop variable (before 1.22), `product = &v` makes later comparisons test `v` against itself. Only the first match is updated, and the caller gets the last element of the list. | Fetched `[a, b]` with `a.iid == p.iid != b.iid`: the caller gets `b`, untouched. | Every match is updated, and the caller gets the updated product (or its input when nothing matched). | not executed; depends on the go directive in go.mod, which is not part of this model | Products.SharedVariableReturnsWrongProduct | Products.PerIterationReturnsLastMatch |

=== FILE: decimal.dfy ===
/**
 Decimal rendering of identities, as Go's `strconv.Itoa` does it, together
 with the parser that undoes it.  The store mints record identities with
 `strconv.Itoa(lastId + 1)`; the round trip below is what makes two different
 counters give two different identity strings.
 */
module Decimal {
  import opened Wrappers

  predicate IsDigit(c: char) {
    '0' <= c <= '9'
  }

  function DigitChar(d: nat): (c: char)
    requires d < 10
    ensures IsDigit(c)
    ensures c as int - '0' as int == d
  {
    ('0' as int + d) as char
  }

  function DigitValue(c: char): (d: nat)
    requires IsDigit(c)
    ensures d < 10
  {
    c as int - '0' as int
  }

  predicate AllDigits(s: string) {
    forall i :: 0 <= i < |s| ==> IsDigit(s[i])
  }

  /** The shortest decimal spelling of `n`: no sign and no leading zero. */
  function NatToString(n: nat): (s: string)
    ensures |s| >= 1
    ensures AllDigits(s)
    ensures s[0] == '0' <==> n == 0
    decreases n
  {
    if n < 10 then [DigitChar(n)] else NatToString(n / 10) + [DigitChar(n % 10)]
  }

  /** `strconv.Itoa`: a minus sign in front of the magnitude for negative numbers. */
  function Itoa(n: int): (s: string)
    ensures |s| >= 1
    ensures s[0] == '-' <==> n < 0
    ensures n >= 0 ==> AllDigits(s)
  {
    if n < 0 then "-" + NatToString(-n) else NatToString(n)
  }

  /** The value of a non-empty run of digits, read left to right. */
  function DigitsValue(s: string): nat
    requires |s| >= 1 && AllDigits(s)
    decreases |s|
  {
    if |s| == 1 then DigitValue(s[0])
    else DigitsValue(s[..|s| - 1]) * 10 + DigitValue(s[|s| - 1])
  }

  /** Reads back what `Itoa` writes: an optional minus sign and at least one digit. */
  function ParseInt(s: string): Option<int> {
    if |s| >= 2 && s[0] == '-' && AllDigits(s[1..]) then Some(0 - DigitsValue(s[1..]) as int)
    else if |s| >= 1 && AllDigits(s) then Some(DigitsValue(s))
    else None
  }

  lemma {:induction false} DigitsOfNat(n: nat)
    ensures DigitsValue(NatToString(n)) == n
    decreases n
  {
    if n >= 10 {
      var s := NatToString(n);
      assert s[..|s| - 1] == NatToString(n / 10);
      DigitsOfNat(n / 10);
    }
  }

  /** Every identity the store mints parses back to the counter it came from. */
  lemma ParseItoa(n: int)
    ensures ParseInt(Itoa(n)) == Some(n)
  {
    if n < 0 {
      var s := Itoa(n);
      assert s[1..] == NatToString(-n);
      DigitsOfNat(-n);
    } else {
      DigitsOfNat(n);
    }
  }

  /** Different counters give different identity strings. */
  lemma ItoaInjective(a: int, b: int)
    ensures Itoa(a) == Itoa(b) <==> a == b
  {
    if Itoa(a) == Itoa(b) {
      ParseItoa(a);
      ParseItoa(b);
    }
  }
}

=== FILE: products.dfy ===
/**
 The product repository: lookup by `iid`, creation, and the update and delete
 list rewrites keyed on `iid`, each over the document store.  Products travel
 through the store as records; `Encode` and `Decode` are the JSON mapping
 between a `Product` and its record.
 */
module Products {
  import opened Wrappers
  import opened Values
  import opened Subsequences
  import Decimal
  import Store
  import Query

  /** The bookkeeping fields every stored document embeds. */
  datatype DbModel = DbModel(createdAt: Timestamp, updatedAt: Timestamp, deletedAt: Option<Timestamp>, deleted: bool, id: string)

  /** A toy product: the embedded bookkeeping fields and the product's own fields. */
  datatype Product = Product(meta: DbModel, name: string, brand: string, company: string, iid: string, id: string)

  /** How the zero `time.Time` is written. */
  const ZeroTime: Timestamp := "0001-01-01T00:00:00Z"

  /** What a `null` record decodes to. */
  const ZeroProduct: Product := Product(DbModel(ZeroTime, ZeroTime, None, false, ""), "", "", "", "", "")

  /** The collection named by the type of a `*domain.Product`: where products are created and read. */
  const ProductCollection: string := "*domain.Product"

  /** The type name `UpdateCollection` takes from the first element of a `*[]domain.Product`. */
  const ProductTypeName: string := "domain.Product"

  /** Why a repository call gave up, or how it crashed. */
  datatype RepoError =
    | FetchFailed(reason: string)   // the store could not read its file
    | NoData                        // the product collection is empty
    | DecodeFailed(field: string)   // a record, or one of its fields, has the wrong JSON type
    | NilRecord                     // the filter asked for the kind of a null record (a panic)
    | NilList                       // an empty fetch decoded to a nil list that was then dereferenced (a panic)
    | EmptyReplacement              // the store indexed the first element of an empty list (a panic)

  /** The writes a repository call makes: none, because it failed, or the image it would write. */
  datatype Effect = Failed(error: RepoError) | Wrote(image: Store.Image)

  /** What a repository call hands back: the product pointer it returns and its effect on the store. */
  datatype Saved = Saved(returned: Product, effect: Effect)

  // ---------------------------------------------------------------------
  // The record form of a product
  // ---------------------------------------------------------------------

  function EncodeDeletedAt(t: Option<Timestamp>): Value {
    match t
    case None => Null
    case Some(s) => Str(s)
  }

  /**
   The record a product is written as.  The product and its embedded part both
   declare an `id` field; the shallower one, the product's own, is the one
   written.
   */
  function Encode(p: Product): map<string, Value> {
    map["created_at" := Str(p.meta.createdAt), "updated_at" := Str(p.meta.updatedAt),
        "deleted_at" := EncodeDeletedAt(p.meta.deletedAt), "deleted" := Bool(p.meta.deleted),
        "id" := Str(p.id), "name" := Str(p.name), "brand" := Str(p.brand),
        "company" := Str(p.company), "iid" := Str(p.iid)]
  }

  /** A list of products as the store's records, in order. */
  function Objects(ps: seq<Product>): seq<Value> {
    seq(|ps|, i requires 0 <= i < |ps| => Object(Encode(ps[i])))
  }

  /** What survives writing a product out: everything but the embedded identity. */
  function Visible(p: Product): Product {
    p.(meta := p.meta.(id := ""))
  }

  function Visibles(ps: seq<Product>): seq<Product> {
    seq(|ps|, i requires 0 <= i < |ps| => Visible(ps[i]))
  }

  /** A string field: absent or null leaves the zero value, a string is taken, anything else is an error. */
  function StringField(fields: map<string, Value>, key: string): Result<string, RepoError> {
    if key !in fields then Ok("")
    else match fields[key]
      case Null => Ok("")
      case Str(s) => Ok(s)
      case _ => Err(DecodeFailed(key))
  }

  /** A time field: absent or null leaves the zero time. */
  function TimeField(fields: map<string, Value>, key: string): Result<Timestamp, RepoError> {
    if key !in fields then Ok(ZeroTime)
    else match fields[key]
      case Null => Ok(ZeroTime)
      case Str(s) => Ok(s)
      case _ => Err(DecodeFailed(key))
  }

  /** A time pointer field: absent or null is a nil pointer. */
  function OptionalTimeField(fields: map<string, Value>, key: string): Result<Option<Timestamp>, RepoError> {
    if key !in fields then Ok(None)
    else match fields[key]
      case Null => Ok(None)
      case Str(s) => Ok(Some(s))
      case _ => Err(DecodeFailed(key))
  }

  /** A boolean field: absent or null leaves `false`. */
  function BoolField(fields: map<string, Value>, key: string): Result<bool, RepoError> {
    if key !in fields then Ok(false)
    else match fields[key]
      case Null => Ok(false)
      case Bool(b) => Ok(b)
      case _ => Err(DecodeFailed(key))
  }

  /**
   A record read back as a product.  A null record is the zero product, a
   record that is not an object is an error, and the embedded identity never
   comes back, since no record field feeds it.
   */
  function Decode(v: Value): (r: Result<Product, RepoError>)
    ensures v.Null? ==> r == Ok(ZeroProduct)
    ensures !v.Null? && !v.Object? ==> r.Err?
    ensures r.Err? ==> r.error.DecodeFailed?
    ensures r.Ok? ==> r.value.meta.id == ""
    ensures r.Ok? && v.Object? && "iid" in v.fields && v.fields["iid"].Str? ==> r.value.iid == v.fields["iid"].s
  {
    match v
    case Null => Ok(ZeroProduct)
    case Object(fs) =>
      var createdAt :- TimeField(fs, "created_at");
      var updatedAt :- TimeField(fs, "updated_at");
      var deletedAt :- OptionalTimeField(fs, "deleted_at");
      var deleted :- BoolField(fs, "deleted");
      var id :- StringField(fs, "id");
      var name :- StringField(fs, "name");
      var brand :- StringField(fs, "brand");
      var company :- StringField(fs, "company");
      var iid :- StringField(fs, "iid");
      Ok(Product(DbModel(createdAt, updatedAt, deletedAt, deleted, ""), name, brand, company, iid, id))
    case _ => Err(DecodeFailed(""))
  }

  /** A list of records read back as products, in order; one bad record fails the whole list. */
  function DecodeAll(vs: seq<Value>): (r: Result<seq<Product>, RepoError>)
    ensures r.Ok? <==> forall i :: 0 <= i < |vs| ==> Decode(vs[i]).Ok?
    ensures r.Err? ==> r.error.DecodeFailed?
    ensures r.Ok? ==> |r.value| == |vs| && forall i :: 0 <= i < |vs| ==> Decode(vs[i]) == Ok(r.value[i])
    decreases |vs|
  {
    if |vs| == 0 then Ok([])
    else
      var init :- DecodeAll(vs[..|vs| - 1]);
      var last :- Decode(vs[|vs| - 1]);
      Ok(init + [last])
  }

  /** The fields of a written product, key by key. */
  lemma EncodedFields(p: Product)
    ensures var e := Encode(p);
      && e["created_at"] == Str(p.meta.createdAt) && e["updated_at"] == Str(p.meta.updatedAt)
      && e["deleted_at"] == EncodeDeletedAt(p.meta.deletedAt) && e["deleted"] == Bool(p.meta.deleted)
    ensures var e := Encode(p);
      && e["id"] == Str(p.id) && e["name"] == Str(p.name) && e["brand"] == Str(p.brand)
      && e["company"] == Str(p.company) && e["iid"] == Str(p.iid)
  {
  }

  /** Round trip: a written product reads back as itself, less the embedded identity. */
  lemma DecodeEncode(p: Product)
    ensures Decode(Object(Encode(p))) == Ok(Visible(p))
    ensures Encode(Visible(p)) == Encode(p)
  {
    var e := Encode(p);
    EncodedFields(p);
    assert TimeField(e, "created_at") == Ok(p.meta.createdAt);
    assert TimeField(e, "updated_at") == Ok(p.meta.updatedAt);
    assert OptionalTimeField(e, "deleted_at") == Ok(p.meta.deletedAt);
    assert BoolField(e, "deleted") == Ok(p.meta.deleted);
    assert StringField(e, "id") == Ok(p.id);
    assert StringField(e, "name") == Ok(p.name);
    assert StringField(e, "brand") == Ok(p.brand);
    assert StringField(e, "company") == Ok(p.company);
    assert StringField(e, "iid") == Ok(p.iid);
  }

  /** Round trip over a list: written products read back as themselves, in order. */
  lemma DecodeObjects(ps: seq<Product>)
    ensures DecodeAll(Objects(ps)) == Ok(Visibles(ps))
  {
    forall i | 0 <= i < |ps|
      ensures Decode(Objects(ps)[i]) == Ok(Visibles(ps)[i])
    {
      DecodeEncode(ps[i]);
    }
    var r := DecodeAll(Objects(ps));
    assert r.Ok?;
    assert r.value == Visibles(ps);
  }

  // ---------------------------------------------------------------------
  // GetProductByID
  // ---------------------------------------------------------------------

  /** The filter value `GetProductByID` passes: the requested `iid` as a string. */
  function IidValue(id: string): Value {
    Str(id)
  }

  /**
   `GetProductByID`: fetch the product collection, refuse an empty one, keep
   the records whose `iid` field is the string `id`, and read them back as
   products.  The filter crashes on a null record.
   */
  function GetProductByID(f: Store.ReadOutcome, id: string): (r: Result<seq<Product>, RepoError>)
    ensures f.Unreadable? ==> r == Err(FetchFailed(f.reason))
    ensures f.Readable? ==>
      (r == Err(NoData) <==> |Store.Records(Store.ReadDatabase(f).value, ProductCollection)| == 0)
    ensures r.Ok? ==> forall i :: 0 <= i < |r.value| ==> r.value[i].iid == id
  {
    match Store.GetFromCollection(f, ProductCollection)
    case Err(e) => Err(FetchFailed(e))
    case Ok(records) =>
      if |records| == 0 then Err(NoData)
      else if exists i :: 0 <= i < |records| && records[i].Null? then Err(NilRecord)
      else
        var found := Query.Where(records, "iid", IidValue(id));
        Query.WhereMembership(records, "iid", IidValue(id));
        assert forall i :: 0 <= i < |found| ==> found[i] in found;
        DecodeAll(found)
  }

  // ---------------------------------------------------------------------
  // CreateProduct
  // ---------------------------------------------------------------------

  /** A product with the identity and both timestamps the store's create sets. */
  function Stamp(p: Product, id: string, now: Timestamp): Product {
    p.(meta := p.meta.(id := id, createdAt := now, updatedAt := now), id := id)
  }

  /** Stamping commutes with writing: the store's stamped record is the record of the stamped product. */
  lemma StampThenEncode(p: Product, id: string, now: Timestamp)
    ensures Store.StampCreated(Encode(p), id, now) == Encode(Stamp(p, id, now))
  {
  }

  /** The identity string a stored record carries. */
  function RecordId(rec: map<string, Value>): string {
    if "id" in rec && rec["id"].Str? then rec["id"].s else ""
  }

  /**
   `CreateProduct`: hand the product to the store's create and return the same
   product, which the store has stamped with the next identity and `now`;
   when the store cannot read its file the product comes back untouched.
   */
  function CreateProduct(f: Store.ReadOutcome, p: Product, now: Timestamp): (r: Saved)
    ensures f.Unreadable? ==> r == Saved(p, Failed(FetchFailed(f.reason)))
    ensures f.Readable? ==>
      var img := Store.ReadDatabase(f).value;
      var next := if ProductCollection in img.items then Store.Counter(img, ProductCollection) + 1 else 1;
      && r.returned == Stamp(p, Decimal.Itoa(next), now)
      && r.effect.Wrote?
      && Store.Records(r.effect.image, ProductCollection)
         == Store.Records(img, ProductCollection) + [Object(Encode(r.returned))]
  {
    match Store.WriteToCollection(f, ProductCollection, Encode(p), now)
    case Err(e) => Saved(p, Failed(FetchFailed(e)))
    case Ok(c) =>
      var stamped := Stamp(p, RecordId(c.record), now);
      StampThenEncode(p, RecordId(c.record), now);
      Saved(stamped, Wrote(c.image))
  }

  // ---------------------------------------------------------------------
  // Lookup over written products
  // ---------------------------------------------------------------------

  /** The admission test of a lookup by `iid`. */
  function HasIid(id: string): Product -> bool {
    (q: Product) => q.iid == id
  }

  /** The products carrying `iid` `id`, in order: the reference for what a lookup returns. */
  function WithIid(ps: seq<Product>, id: string): seq<Product> {
    FilterMap(ps, HasIid(id), Identity)
  }

  lemma ObjectsSnoc(ps: seq<Product>, q: Product)
    ensures Objects(ps + [q]) == Objects(ps) + [Object(Encode(q))]
  {
  }

  lemma VisiblesSnoc(ps: seq<Product>, q: Product)
    ensures Visibles(ps + [q]) == Visibles(ps) + [Visible(q)]
  {
  }

  /** A written product's record passes the `iid` filter exactly when the product has that `iid`. */
  lemma SelectedByIid(q: Product, id: string)
    ensures Query.Selected(Object(Encode(q)), "iid", IidValue(id)) <==> q.iid == id
  {
    EncodedFields(q);
  }

  /** Filtering written products by `iid` is writing the products with that `iid`. */
  lemma {:induction false} WhereOverObjects(ps: seq<Product>, id: string)
    ensures Query.Where(Objects(ps), "iid", IidValue(id)) == Objects(WithIid(ps, id))
    decreases |ps|
  {
    if |ps| > 0 {
      var init := ps[..|ps| - 1];
      var last := ps[|ps| - 1];
      assert ps == init + [last];
      ObjectsSnoc(init, last);
      WhereOverObjects(init, id);
      SelectedByIid(last, id);
      var rs := Objects(ps);
      assert rs[..|rs| - 1] == Objects(init);
      assert rs[|rs| - 1] == Object(Encode(last));
      if last.iid == id {
        ObjectsSnoc(WithIid(init, id), last);
      }
    }
  }

  /**
   Lookup over a collection of written products: exactly the products with
   the requested `iid`, in stored order, as they read back.
   */
  lemma GetByIdFindsExactly(img: Store.Image, ps: seq<Product>, id: string)
    requires Store.Records(img, ProductCollection) == Objects(ps) && |ps| > 0
    ensures GetProductByID(Store.Readable(Some(img)), id) == Ok(Visibles(WithIid(ps, id)))
  {
    WhereOverObjects(ps, id);
    DecodeObjects(WithIid(ps, id));
    var records := Objects(ps);
    assert records[0] == Object(Encode(ps[0]));
    assert !(exists i :: 0 <= i < |records| && records[i].Null?);
  }

  /** Create then look up: the new product is found, after the earlier products with its `iid`. */
  lemma CreateThenGetById(img: Store.Image, ps: seq<Product>, p: Product, now: Timestamp)
    requires Store.Records(img, ProductCollection) == Objects(ps)
    ensures var r := CreateProduct(Store.Readable(Some(img)), p, now);
      && r.effect.Wrote?
      && GetProductByID(Store.Readable(Some(r.effect.image)), p.iid)
         == Ok(Visibles(WithIid(ps, p.iid)) + [Visible(r.returned)])
  {
    var r := CreateProduct(Store.Readable(Some(img)), p, now);
    ObjectsSnoc(ps, r.returned);
    GetByIdFindsExactly(r.effect.image, ps + [r.returned], p.iid);
    assert (ps + [r.returned])[..|ps|] == ps;
    VisiblesSnoc(WithIid(ps, p.iid), r.returned);
  }

  // ---------------------------------------------------------------------
  // UpdateProduct
  // ---------------------------------------------------------------------

  /** `v` with the fields an update copies from `src`: name, brand, company and last-update time. */
  function ApplyUpdate(v: Product, src: Product): Product {
    v.(name := src.name, brand := src.brand, company := src.company, meta := v.meta.(updatedAt := src.meta.updatedAt))
  }

  /**
   Whether the update loop's `v` is one variable for the whole loop (Go before
   1.22) or a fresh variable per iteration (Go 1.22 and later).  The module's
   `go` directive decides, and it is not part of this model.
   */
  datatype LoopVarScope = SharedVariable | PerIterationVariable

  /**
   The update loop's state: the list built so far, the value the `product`
   pointer held when it last pointed at a variable of its own, whether it now
   points at the shared loop variable instead, and that variable's value.
   */
  datatype Scanned = Scanned(temp: seq<Product>, product: Product, aliased: bool, current: Product)

  /** One iteration: compare `v` with what `product` points at, copy the update in, and re-point `product` at `v`. */
  function Step(st: Scanned, v: Product, scope: LoopVarScope): Scanned {
    var target := if st.aliased then v else st.product;
    if v.iid == target.iid then
      var updated := ApplyUpdate(v, target);
      if scope == SharedVariable then Scanned(st.temp + [updated], st.product, true, updated)
      else Scanned(st.temp + [updated], updated, false, updated)
    else Scanned(st.temp + [v], st.product, st.aliased, v)
  }

  /** The loop over the fetched products, with `product` first pointing at the caller's input. */
  function Scan(all: seq<Product>, p: Product, scope: LoopVarScope): Scanned
    decreases |all|
  {
    if |all| == 0 then Scanned([], p, false, ZeroProduct)
    else Step(Scan(all[..|all| - 1], p, scope), all[|all| - 1], scope)
  }

  /** What `product` points at once the loop is over. */
  function Returned(st: Scanned): Product {
    if st.aliased then st.current else st.product
  }

  /** Some fetched product has `iid` `id`. */
  predicate AnyWithIid(all: seq<Product>, id: string) {
    exists i :: 0 <= i < |all| && all[i].iid == id
  }

  /** Position `i` holds the first product with `iid` `id`. */
  predicate FirstWithIid(all: seq<Product>, id: string, i: int) {
    0 <= i < |all| && all[i].iid == id && forall j :: 0 <= j < i ==> all[j].iid != id
  }

  /** Position `i` holds the last product with `iid` `id`. */
  predicate LastWithIid(all: seq<Product>, id: string, i: int) {
    0 <= i < |all| && all[i].iid == id && forall j :: i < j < |all| ==> all[j].iid != id
  }

  /** `q` carries the update `p` asks for: the same `iid` and the copied fields. */
  predicate CarriesUpdate(q: Product, p: Product) {
    q.iid == p.iid && q.name == p.name && q.brand == p.brand && q.company == p.company
    && q.meta.updatedAt == p.meta.updatedAt
  }

  /** One iteration with a fresh variable: `product` keeps carrying the input's update. */
  lemma PerIterationStep(before: Scanned, v: Product, p: Product)
    requires !before.aliased && CarriesUpdate(before.product, p)
    ensures var st := Step(before, v, PerIterationVariable);
      && !st.aliased
      && st.temp == before.temp + [if v.iid == p.iid then ApplyUpdate(v, p) else v]
      && st.product == (if v.iid == p.iid then ApplyUpdate(v, p) else before.product)
      && CarriesUpdate(st.product, p)
  {
    assert ApplyUpdate(v, before.product) == ApplyUpdate(v, p);
  }

  /** With a fresh loop variable per iteration, `product` never aliases the loop variable and keeps carrying the update. */
  lemma {:induction false} ScanPerIterationState(all: seq<Product>, p: Product)
    ensures !Scan(all, p, PerIterationVariable).aliased
    ensures CarriesUpdate(Scan(all, p, PerIterationVariable).product, p)
    decreases |all|
  {
    if |all| > 0 {
      var n := |all| - 1;
      ScanPerIterationState(all[..n], p);
      PerIterationStep(Scan(all[..n], p, PerIterationVariable), all[n], p);
    }
  }

  /**
   With a fresh loop variable per iteration: every product with the input's
   `iid` takes the update, every other product is kept, and the list keeps
   its length and order.
   */
  lemma {:induction false} ScanPerIteration(all: seq<Product>, p: Product)
    ensures var st := Scan(all, p, PerIterationVariable);
      && !st.aliased
      && CarriesUpdate(st.product, p)
      && |st.temp| == |all|
      && (forall i :: 0 <= i < |all| ==>
            st.temp[i] == if all[i].iid == p.iid then ApplyUpdate(all[i], p) else all[i])
    decreases |all|
  {
    if |all| > 0 {
      var n := |all| - 1;
      var init := all[..n];
      ScanPerIteration(init, p);
      var before := Scan(init, p, PerIterationVariable);
      PerIterationStep(before, all[n], p);
      var st := Scan(all, p, PerIterationVariable);
      forall i | 0 <= i < n
        ensures st.temp[i] == if all[i].iid == p.iid then ApplyUpdate(all[i], p) else all[i]
      {
        assert init[i] == all[i];
      }
    }
  }

  /** One iteration with a fresh variable, as the scan over `all` takes its last step. */
  lemma PerIterationLastStep(all: seq<Product>, p: Product)
    requires |all| > 0
    ensures var before := Scan(all[..|all| - 1], p, PerIterationVariable);
      var st := Scan(all, p, PerIterationVariable);
      && !before.aliased && !st.aliased
      && Returned(st) == (if all[|all| - 1].iid == p.iid then ApplyUpdate(all[|all| - 1], p) else Returned(before))
  {
    var before := Scan(all[..|all| - 1], p, PerIterationVariable);
    ScanPerIterationState(all[..|all| - 1], p);
    PerIterationStep(before, all[|all| - 1], p);
  }

  /** With a fresh loop variable per iteration and no product to match, the caller's input comes back. */
  lemma {:induction false} PerIterationNoMatch(all: seq<Product>, p: Product)
    requires !AnyWithIid(all, p.iid)
    ensures Returned(Scan(all, p, PerIterationVariable)) == p
    decreases |all|
  {
    if |all| > 0 {
      var n := |all| - 1;
      var init := all[..n];
      assert !AnyWithIid(init, p.iid) by {
        forall i | 0 <= i < |init|
          ensures init[i].iid != p.iid
        {
          assert init[i] == all[i];
        }
      }
      PerIterationNoMatch(init, p);
      PerIterationLastStep(all, p);
    }
  }

  /** A product that follows the last match and does not match leaves the last match where it was. */
  lemma LastMatchExtends(all: seq<Product>, id: string, k: int)
    requires |all| > 0 && LastWithIid(all[..|all| - 1], id, k) && all[|all| - 1].iid != id
    ensures LastWithIid(all, id, k)
  {
    var init := all[..|all| - 1];
    assert all[k] == init[k];
    forall j | k < j < |all|
      ensures all[j].iid != id
    {
      if j < |all| - 1 {
        assert all[j] == init[j];
      }
    }
  }

  /** With a fresh loop variable per iteration and some product to match, the last match comes back updated. */
  lemma {:induction false} PerIterationLastMatch(all: seq<Product>, p: Product)
    requires AnyWithIid(all, p.iid)
    ensures exists k :: LastWithIid(all, p.iid, k)
                        && Returned(Scan(all, p, PerIterationVariable)) == ApplyUpdate(all[k], p)
    decreases |all|
  {
    var n := |all| - 1;
    var init := all[..n];
    var st := Scan(all, p, PerIterationVariable);
    PerIterationLastStep(all, p);
    if all[n].iid == p.iid {
      assert LastWithIid(all, p.iid, n) && Returned(st) == ApplyUpdate(all[n], p);
    } else {
      assert AnyWithIid(init, p.iid) by {
        var i :| 0 <= i < |all| && all[i].iid == p.iid;
        assert i < n && init[i] == all[i];
      }
      var before := Scan(init, p, PerIterationVariable);
      PerIterationLastMatch(init, p);
      var k :| LastWithIid(init, p.iid, k) && Returned(before) == ApplyUpdate(init[k], p);
      assert Returned(st) == Returned(before);
      assert init[k] == all[k];
      LastMatchExtends(all, p.iid, k);
    }
  }

  /**
   With a fresh loop variable per iteration the caller gets back the last
   updated product, or its own input when nothing matched.
   */
  lemma PerIterationReturnsLastMatch(all: seq<Product>, p: Product)
    ensures var st := Scan(all, p, PerIterationVariable);
      && (AnyWithIid(all, p.iid) ==> exists k :: LastWithIid(all, p.iid, k) && Returned(st) == ApplyUpdate(all[k], p))
      && (!AnyWithIid(all, p.iid) ==> Returned(st) == p)
  {
    if AnyWithIid(all, p.iid) {
      PerIterationLastMatch(all, p);
    } else {
      PerIterationNoMatch(all, p);
    }
  }

  /** The position of the first product with `iid` `id`, or -1 when there is none. */
  function FirstIndex(all: seq<Product>, id: string): (k: int)
    ensures -1 <= k < |all|
    decreases |all|
  {
    if |all| == 0 then -1
    else
      var n := |all| - 1;
      var earlier := FirstIndex(all[..n], id);
      if earlier >= 0 then earlier
      else if all[n].iid == id then n
      else -1
  }

  /** `FirstIndex` finds the first match, and reports none only when there is none. */
  lemma {:induction false} FirstIndexIsFirst(all: seq<Product>, id: string)
    ensures FirstIndex(all, id) >= 0 ==> FirstWithIid(all, id, FirstIndex(all, id))
    ensures FirstIndex(all, id) < 0 <==> !AnyWithIid(all, id)
    decreases |all|
  {
    if |all| > 0 {
      var n := |all| - 1;
      var init := all[..n];
      FirstIndexIsFirst(init, id);
      assert forall j :: 0 <= j < n ==> init[j] == all[j];
      if AnyWithIid(init, id) {
        var j :| 0 <= j < n && init[j].iid == id;
        assert all[j].iid == id;
      }
      if AnyWithIid(all, id) && all[n].iid != id {
        var j :| 0 <= j < |all| && all[j].iid == id;
        assert init[j].iid == id;
      }
    }
  }

  /** `s` with position `k` replaced by `u`. */
  function Splice<T>(s: seq<T>, k: int, u: T): seq<T>
    requires 0 <= k < |s|
  {
    s[..k] + [u] + s[k + 1..]
  }

  /**
   What the shared-variable loop builds: the fetched list with the first
   product carrying the input's `iid` updated, the rest as fetched.
   */
  function UpdateFirst(all: seq<Product>, p: Product): seq<Product> {
    var k := FirstIndex(all, p.iid);
    if k < 0 then all else Splice(all, k, ApplyUpdate(all[k], p))
  }

  /** Replacing one element and then appending is appending and then replacing the same element. */
  lemma SpliceThenAppend<T>(s: seq<T>, k: int, u: T, v: T)
    requires 0 <= k < |s|
    ensures Splice(s, k, u) + [v] == Splice(s + [v], k, u)
  {
    assert (s + [v])[..k] == s[..k];
    assert (s + [v])[k + 1..] == s[k + 1..] + [v];
  }

  /**
   One iteration with the shared variable: before the first match `product`
   still points at the input; from the first match on it points at the loop
   variable, whose comparison with itself always succeeds and whose copy onto
   itself changes nothing.
   */
  lemma SharedStep(before: Scanned, v: Product, p: Product)
    requires !before.aliased ==> before.product == p
    ensures var st := Step(before, v, SharedVariable);
      && st.temp == before.temp + [if !before.aliased && v.iid == p.iid then ApplyUpdate(v, p) else v]
      && st.aliased == (before.aliased || v.iid == p.iid)
      && (!st.aliased ==> st.product == p)
      && st.current == st.temp[|st.temp| - 1]
  {
    if before.aliased {
      assert ApplyUpdate(v, v) == v;
    }
  }

  /** With the shared variable the loop aliases `product` exactly when something matched. */
  lemma {:induction false} ScanSharedState(all: seq<Product>, p: Product)
    ensures var st := Scan(all, p, SharedVariable);
      && |st.temp| == |all|
      && (st.aliased <==> FirstIndex(all, p.iid) >= 0)
      && (!st.aliased ==> st.product == p)
      && (|all| > 0 ==> st.current == st.temp[|all| - 1])
    decreases |all|
  {
    if |all| > 0 {
      var n := |all| - 1;
      ScanSharedState(all[..n], p);
      SharedStep(Scan(all[..n], p, SharedVariable), all[n], p);
    }
  }

  /** `UpdateFirst` grows one product at a time, the way the loop does. */
  lemma UpdateFirstLast(all: seq<Product>, p: Product)
    requires |all| > 0
    ensures var n := |all| - 1;
      UpdateFirst(all, p)
      == if FirstIndex(all[..n], p.iid) >= 0 then UpdateFirst(all[..n], p) + [all[n]]
         else if all[n].iid == p.iid then all[..n] + [ApplyUpdate(all[n], p)]
         else all[..n] + [all[n]]
  {
    var n := |all| - 1;
    var init := all[..n];
    var v := all[n];
    assert all == init + [v];
    var k := FirstIndex(init, p.iid);
    if k >= 0 {
      assert all[k] == init[k];
      SpliceThenAppend(init, k, ApplyUpdate(init[k], p), v);
    } else if v.iid == p.iid {
      assert all[n + 1..] == [];
    }
  }

  /**
   With one loop variable for the whole loop: the first product with the
   input's `iid` takes the update; from then on `product` points at the loop
   variable itself, so every later comparison succeeds and copies the
   variable onto itself, leaving the rest of the list as fetched.
   */
  lemma {:induction false} ScanShared(all: seq<Product>, p: Product)
    ensures Scan(all, p, SharedVariable).temp == UpdateFirst(all, p)
    decreases |all|
  {
    if |all| > 0 {
      var n := |all| - 1;
      var init := all[..n];
      var before := Scan(init, p, SharedVariable);
      var st := Step(before, all[n], SharedVariable);
      assert Scan(all, p, SharedVariable) == st;
      ScanShared(init, p);
      ScanSharedState(init, p);
      SharedStep(before, all[n], p);
      UpdateFirstLast(all, p);
      if FirstIndex(init, p.iid) >= 0 {
        assert st.temp == UpdateFirst(init, p) + [all[n]];
      } else if all[n].iid == p.iid {
        assert st.temp == init + [ApplyUpdate(all[n], p)];
      } else {
        assert st.temp == init + [all[n]];
      }
    }
  }

  /** With the shared variable the caller gets back the last product of the list, or its input when nothing matched. */
  lemma SharedReturnsLast(all: seq<Product>, p: Product)
    ensures var st := Scan(all, p, SharedVariable);
      && |st.temp| == |all|
      && Returned(st) == if AnyWithIid(all, p.iid) then st.temp[|all| - 1] else p
  {
    ScanSharedState(all, p);
    FirstIndexIsFirst(all, p.iid);
  }

  /** The record list `UpdateCollection` is handed: the loop's list, written. */
  function Encodings(ps: seq<Product>): seq<map<string, Value>> {
    seq(|ps|, i requires 0 <= i < |ps| => Encode(ps[i]))
  }

  /**
   `UpdateProduct`: fetch the product collection, read it back as products,
   run the update loop, and bulk-replace the collection with the loop's list.
   The fetch and the bulk replace each read the backing file: `f` is what the
   fetch read and `g` what the replace read.  A fetch error comes back with
   the input and nothing is replaced; an empty collection decodes to a nil
   list, which the loop dereferences; a failed second read comes back with
   the product the loop's pointer ended on.
   */
  function UpdateProduct(f: Store.ReadOutcome, g: Store.ReadOutcome, p: Product, now: Timestamp, scope: LoopVarScope)
    : (r: Saved)
    ensures f.Unreadable? ==> r == Saved(p, Failed(FetchFailed(f.reason)))
    ensures f.Readable? && |Store.Records(Store.ReadDatabase(f).value, ProductCollection)| == 0 ==>
      r == Saved(p, Failed(NilList))
    ensures f.Readable? ==>
      var records := Store.Records(Store.ReadDatabase(f).value, ProductCollection);
      |records| > 0 && DecodeAll(records).Err? ==> r == Saved(p, Failed(DecodeAll(records).error))
    ensures f.Readable? && g.Readable? ==>
      var records := Store.Records(Store.ReadDatabase(f).value, ProductCollection);
      |records| > 0 && DecodeAll(records).Ok? ==>
        var st := Scan(DecodeAll(records).value, p, scope);
        r == Saved(Returned(st), Wrote(Store.Replace(Store.ReadDatabase(g).value, Store.SlicePointer(ProductTypeName),
                                                     Encodings(st.temp), now)))
    ensures f.Readable? && g.Unreadable? ==> !r.effect.Wrote?
    ensures f.Readable? && g.Unreadable? ==>
      var records := Store.Records(Store.ReadDatabase(f).value, ProductCollection);
      |records| > 0 && DecodeAll(records).Ok? ==>
        r == Saved(Returned(Scan(DecodeAll(records).value, p, scope)), Failed(FetchFailed(g.reason)))
    ensures r.effect.Wrote? ==> exists all: seq<Product> ::
      && DecodeAll(Store.Records(Store.ReadDatabase(f).value, ProductCollection)) == Ok(all)
      && r.effect.image == Store.Replace(Store.ReadDatabase(g).value, Store.SlicePointer(ProductTypeName),
                                         Encodings(Scan(all, p, scope).temp), now)
      && r.returned == Returned(Scan(all, p, scope))
  {
    match Store.GetFromCollection(f, ProductCollection)
    case Err(e) => Saved(p, Failed(FetchFailed(e)))
    case Ok(records) =>
      if |records| == 0 then Saved(p, Failed(NilList))
      else match DecodeAll(records)
        case Err(e) => Saved(p, Failed(e))
        case Ok(all) =>
          var st := Scan(all, p, scope);
          ScanLength(all, p, scope);
          var returned := Returned(st);
          match Store.UpdateCollection(g, Store.SlicePointer(ProductTypeName), Encodings(st.temp), now)
          case Err(e) => Saved(returned, Failed(FetchFailed(e)))
          case Ok(img) => Saved(returned, Wrote(img))
  }

  /** The loop's list has one product per fetched product. */
  lemma ScanLength(all: seq<Product>, p: Product, scope: LoopVarScope)
    ensures |Scan(all, p, scope).temp| == |all|
  {
    if scope == SharedVariable {
      ScanSharedState(all, p);
    } else {
      ScanPerIteration(all, p);
    }
  }

  /** The shared-variable list, position by position: only the first product with the input's `iid` changes. */
  lemma UpdateFirstAt(all: seq<Product>, p: Product)
    ensures |UpdateFirst(all, p)| == |all|
    ensures forall i :: 0 <= i < |all| ==>
      UpdateFirst(all, p)[i] == if FirstWithIid(all, p.iid, i) then ApplyUpdate(all[i], p) else all[i]
  {
    FirstIndexIsFirst(all, p.iid);
    var k := FirstIndex(all, p.iid);
    forall i | 0 <= i < |all|
      ensures UpdateFirst(all, p)[i] == if FirstWithIid(all, p.iid, i) then ApplyUpdate(all[i], p) else all[i]
    {
      if k >= 0 && i != k {
        assert !FirstWithIid(all, p.iid, i) by {
          if i > k {
            assert all[k].iid == p.iid;
          }
        }
      }
      if k < 0 {
        assert !FirstWithIid(all, p.iid, i);
      }
    }
  }

  /**
   The loop-variable discrepancy on the smallest input: updating the first of
   two products with distinct `iid`s hands the caller the second, untouched
   product when the loop variable is shared, and the updated first product
   when it is fresh per iteration.
   */
  lemma SharedVariableReturnsWrongProduct(a: Product, b: Product, p: Product)
    requires a.iid == p.iid && b.iid != p.iid
    ensures Returned(Scan([a, b], p, SharedVariable)) == b
    ensures Returned(Scan([a, b], p, PerIterationVariable)) == ApplyUpdate(a, p)
    ensures ApplyUpdate(a, p) != b
  {
    assert [a, b][..1] == [a];
    assert [a][..0] == [];
    var start := Scanned([], p, false, ZeroProduct);
    var u := ApplyUpdate(a, p);
    assert Scan([a], p, SharedVariable) == Step(start, a, SharedVariable) == Scanned([u], p, true, u);
    assert ApplyUpdate(b, b) == b;
    assert Scan([a, b], p, SharedVariable) == Scanned([u, b], p, true, b);
    assert Scan([a], p, PerIterationVariable) == Step(start, a, PerIterationVariable) == Scanned([u], u, false, u);
    assert Scan([a, b], p, PerIterationVariable) == Scanned([u, b], u, false, b);
  }

  /** A product with its last-update time set, as the store's bulk replace sets it. */
  function Touch(q: Product, now: Timestamp): Product {
    q.(meta := q.meta.(updatedAt := now))
  }

  function TouchAll(ps: seq<Product>, now: Timestamp): seq<Product> {
    seq(|ps|, i requires 0 <= i < |ps| => Touch(ps[i], now))
  }

  /** Stamping a record's update time is writing the touched product. */
  lemma StampUpdatedEncode(q: Product, now: Timestamp)
    ensures Store.StampUpdated(Encode(q), now) == Encode(Touch(q, now))
  {
  }

  /** The store's bulk replace of written products stores the touched products, written. */
  lemma StampAllEncodings(ps: seq<Product>, now: Timestamp)
    ensures Store.StampAllUpdated(Encodings(ps), now) == Objects(TouchAll(ps, now))
  {
    forall i | 0 <= i < |ps|
      ensures Store.StampAllUpdated(Encodings(ps), now)[i] == Objects(TouchAll(ps, now))[i]
    {
      StampUpdatedEncode(ps[i], now);
    }
  }

  /** The bulk replace of products lands on the collection products are read from. */
  lemma ProductReplaceTarget()
    ensures Store.TypeNameOf(Store.SlicePointer(ProductTypeName)) != Store.StringTypeName
    ensures Store.StarName(Store.TypeNameOf(Store.SlicePointer(ProductTypeName))) == ProductCollection
  {
    assert ProductCollection == "*" + ProductTypeName;
  }

  /** Replacing the product collection (with no collection named `"string"`) stores the touched products. */
  lemma ReplaceProducts(img: Store.Image, qs: seq<Product>, now: Timestamp)
    requires |qs| > 0 && Store.StringTypeName !in img.items
    ensures Store.Records(Store.Replace(img, Store.SlicePointer(ProductTypeName), Encodings(qs), now), ProductCollection)
            == Objects(TouchAll(qs, now))
  {
    ProductReplaceTarget();
    Store.ReplaceWithoutStringCollection(img, Store.SlicePointer(ProductTypeName), Encodings(qs), now);
    StampAllEncodings(qs, now);
  }

  /**
   On a readable image whose products are all written products, and with the
   file unchanged between the two reads, the update reaches the bulk replace.
   */
  lemma UpdateReachesReplace(img: Store.Image, ps: seq<Product>, p: Product, now: Timestamp, scope: LoopVarScope)
    requires Store.Records(img, ProductCollection) == Objects(ps) && |ps| > 0
    ensures var st := Scan(Visibles(ps), p, scope);
      && |st.temp| > 0
      && UpdateProduct(Store.Readable(Some(img)), Store.Readable(Some(img)), p, now, scope)
         == Saved(Returned(st), Wrote(Store.Replace(img, Store.SlicePointer(ProductTypeName), Encodings(st.temp), now)))
  {
    DecodeObjects(ps);
    ScanLength(Visibles(ps), p, scope);
  }

  /**
   Update over a collection of written products (and no collection named
   `"string"`), with the file unchanged between the two reads: the collection
   now holds the loop's list, touched, and the caller gets what `product`
   points at after the loop.
   */
  lemma UpdateStoresLoopList(img: Store.Image, ps: seq<Product>, p: Product, now: Timestamp, scope: LoopVarScope)
    requires Store.Records(img, ProductCollection) == Objects(ps) && |ps| > 0
    requires Store.StringTypeName !in img.items
    ensures var r := UpdateProduct(Store.Readable(Some(img)), Store.Readable(Some(img)), p, now, scope);
      var st := Scan(Visibles(ps), p, scope);
      && r.effect.Wrote?
      && Store.Records(r.effect.image, ProductCollection) == Objects(TouchAll(st.temp, now))
      && r.returned == Returned(st)
  {
    UpdateReachesReplace(img, ps, p, now, scope);
    ReplaceProducts(img, Scan(Visibles(ps), p, scope).temp, now);
  }

  /**
   A second read that fails after the loop has run: nothing is replaced, yet
   the caller gets the product the loop's pointer ended on, not its input.
   */
  lemma UpdateRereadFails(img: Store.Image, ps: seq<Product>, p: Product, now: Timestamp, scope: LoopVarScope, reason: string)
    requires Store.Records(img, ProductCollection) == Objects(ps) && |ps| > 0
    ensures UpdateProduct(Store.Readable(Some(img)), Store.Unreadable(reason), p, now, scope)
            == Saved(Returned(Scan(Visibles(ps), p, scope)), Failed(FetchFailed(reason)))
  {
    DecodeObjects(ps);
    ScanLength(Visibles(ps), p, scope);
  }

  // ---------------------------------------------------------------------
  // DeleteProduct
  // ---------------------------------------------------------------------

  /** The admission test of a delete: products whose `iid` differs. */
  function IidOtherThan(id: string): Product -> bool {
    (q: Product) => q.iid != id
  }

  /** The products a delete keeps, in order. */
  function Remaining(all: seq<Product>, id: string): seq<Product> {
    FilterMap(all, IidOtherThan(id), Identity)
  }

  /**
   `DeleteProduct`: fetch the product collection, read it back, keep the
   products whose `iid` differs, and bulk-replace the collection with them.
   The fetch reads the backing file as `f` and the bulk replace as `g`.
   A fetch error comes back and nothing is replaced; an empty collection
   decodes to a nil list, which the loop dereferences; a list with nothing
   left makes the store index an empty list; and a failed second read comes
   back as the error.
   */
  function DeleteProduct(f: Store.ReadOutcome, g: Store.ReadOutcome, id: string, now: Timestamp): (r: Effect)
    ensures f.Unreadable? ==> r == Failed(FetchFailed(f.reason))
    ensures f.Readable? && |Store.Records(Store.ReadDatabase(f).value, ProductCollection)| == 0 ==> r == Failed(NilList)
    ensures f.Readable? ==>
      var records := Store.Records(Store.ReadDatabase(f).value, ProductCollection);
      |records| > 0 && DecodeAll(records).Err? ==> r == Failed(DecodeAll(records).error)
    ensures f.Readable? ==>
      var records := Store.Records(Store.ReadDatabase(f).value, ProductCollection);
      |records| > 0 && DecodeAll(records).Ok? && |Remaining(DecodeAll(records).value, id)| == 0 ==>
        r == Failed(EmptyReplacement)
    ensures f.Readable? && g.Readable? ==>
      var records := Store.Records(Store.ReadDatabase(f).value, ProductCollection);
      |records| > 0 && DecodeAll(records).Ok? && |Remaining(DecodeAll(records).value, id)| > 0 ==>
        r == Wrote(Store.Replace(Store.ReadDatabase(g).value, Store.SlicePointer(ProductTypeName),
                                 Encodings(Remaining(DecodeAll(records).value, id)), now))
    ensures f.Readable? && g.Unreadable? ==> !r.Wrote?
    ensures f.Readable? && g.Unreadable? ==>
      var records := Store.Records(Store.ReadDatabase(f).value, ProductCollection);
      |records| > 0 && DecodeAll(records).Ok? && |Remaining(DecodeAll(records).value, id)| > 0 ==>
        r == Failed(FetchFailed(g.reason))
    ensures r.Wrote? ==> exists all: seq<Product> ::
      && DecodeAll(Store.Records(Store.ReadDatabase(f).value, ProductCollection)) == Ok(all)
      && |Remaining(all, id)| > 0
      && r.image == Store.Replace(Store.ReadDatabase(g).value, Store.SlicePointer(ProductTypeName),
                                  Encodings(Remaining(all, id)), now)
  {
    match Store.GetFromCollection(f, ProductCollection)
    case Err(e) => Failed(FetchFailed(e))
    case Ok(records) =>
      if |records| == 0 then Failed(NilList)
      else match DecodeAll(records)
        case Err(e) => Failed(e)
        case Ok(all) =>
          var kept := Remaining(all, id);
          if |kept| == 0 then Failed(EmptyReplacement)
          else match Store.UpdateCollection(g, Store.SlicePointer(ProductTypeName), Encodings(kept), now)
            case Err(e) => Failed(FetchFailed(e))
            case Ok(img) => Wrote(img)
  }

  /** A delete keeps exactly the products with another `iid`, in their original order. */
  lemma RemainingIsExact(all: seq<Product>, id: string)
    ensures forall q :: q in Remaining(all, id) <==> q in all && q.iid != id
    ensures IsSubsequence(Remaining(all, id), all)
  {
    FilterMapMembership(all, IidOtherThan(id), Identity);
    FilterIsSubsequence(all, IidOtherThan(id), Identity);
  }

  /** Something is left after a delete exactly when some product has another `iid`. */
  lemma RemainingEmptyIff(all: seq<Product>, id: string)
    ensures |Remaining(all, id)| == 0 <==> forall i :: 0 <= i < |all| ==> all[i].iid == id
  {
    FilterMapCount(all, IidOtherThan(id), Identity);
    if exists i :: 0 <= i < |all| && all[i].iid != id {
      var i :| 0 <= i < |all| && all[i].iid != id;
      assert i in AdmittedIndices(all, IidOtherThan(id));
    } else {
      assert AdmittedIndices(all, IidOtherThan(id)) == {};
    }
  }

  /** Written products read back and touched keep their `iid`s, so filtering commutes with both. */
  lemma {:induction false} RemainingTouched(ps: seq<Product>, id: string, now: Timestamp)
    ensures WithIid(TouchAll(Remaining(ps, id), now), id) == []
    decreases |ps|
  {
    var kept := TouchAll(Remaining(ps, id), now);
    FilterMapCount(kept, HasIid(id), Identity);
    RemainingIsExact(ps, id);
    forall i | 0 <= i < |kept|
      ensures kept[i].iid != id
    {
      assert Remaining(ps, id)[i] in Remaining(ps, id);
    }
    assert AdmittedIndices(kept, HasIid(id)) == {};
  }

  /**
   On a readable image whose products are all written products, and with the
   file unchanged between the two reads, the delete reaches the bulk replace
   when something is left.
   */
  lemma DeleteReachesReplace(img: Store.Image, ps: seq<Product>, id: string, now: Timestamp)
    requires Store.Records(img, ProductCollection) == Objects(ps) && |ps| > 0
    ensures var kept := Remaining(Visibles(ps), id);
      DeleteProduct(Store.Readable(Some(img)), Store.Readable(Some(img)), id, now)
      == if |kept| == 0 then Failed(EmptyReplacement)
         else Wrote(Store.Replace(img, Store.SlicePointer(ProductTypeName), Encodings(kept), now))
  {
    DecodeObjects(ps);
  }

  /**
   Delete over a collection of written products: the store crashes on the
   empty replacement list exactly when every product has the deleted `iid`,
   and otherwise the replace is made.
   */
  lemma DeleteFailsIffAllMatch(img: Store.Image, ps: seq<Product>, id: string, now: Timestamp)
    requires Store.Records(img, ProductCollection) == Objects(ps) && |ps| > 0
    ensures var r := DeleteProduct(Store.Readable(Some(img)), Store.Readable(Some(img)), id, now);
      && (r == Failed(EmptyReplacement) <==> forall i :: 0 <= i < |ps| ==> ps[i].iid == id)
      && (r != Failed(EmptyReplacement) ==> r.Wrote?)
  {
    var kept := Remaining(Visibles(ps), id);
    assert |kept| == 0 <==> forall i :: 0 <= i < |ps| ==> ps[i].iid == id by {
      var all := Visibles(ps);
      RemainingEmptyIff(all, id);
      assert forall i :: 0 <= i < |ps| ==> all[i].iid == ps[i].iid;
    }
    DeleteReachesReplace(img, ps, id, now);
  }

  /**
   Delete over a collection of written products (and no collection named
   `"string"`): when something is left, the collection holds exactly the
   products with another `iid`, touched, and a lookup of the deleted `iid`
   finds nothing.
   */
  lemma DeleteRemovesExactly(img: Store.Image, ps: seq<Product>, id: string, now: Timestamp)
    requires Store.Records(img, ProductCollection) == Objects(ps) && |ps| > 0
    requires Store.StringTypeName !in img.items
    ensures var r := DeleteProduct(Store.Readable(Some(img)), Store.Readable(Some(img)), id, now);
      r.Wrote? ==>
        && Store.Records(r.image, ProductCollection) == Objects(TouchAll(Remaining(Visibles(ps), id), now))
        && GetProductByID(Store.Readable(Some(r.image)), id) == Ok([])
  {
    DeleteReachesReplace(img, ps, id, now);
    var kept := Remaining(Visibles(ps), id);
    if |kept| > 0 {
      ReplaceProducts(img, kept, now);
      var written := Store.Replace(img, Store.SlicePointer(ProductTypeName), Encodings(kept), now);
      GetByIdFindsExactly(written, TouchAll(kept, now), id);
      RemainingTouched(Visibles(ps), id, now);
      assert Visibles([]) == [];
    }
  }
}

=== FILE: query.dfy ===
/**
 The single-field equality filter over decoded records (`DBInnerModel.Where`)
 and the pass-through `All`.
 */
module Query {
  import opened Values
  import opened Subsequences

  /** The kinds the filter's switch has a comparison for; slices and maps have none. */
  predicate Comparable(k: Kind) {
    k == KBool || k == KInt || k == KUint || k == KFloat || k == KString
  }

  /** Equality between two values of one comparable kind, floats compared as IEEE numbers. */
  predicate ScalarEqual(a: Value, b: Value) {
    match (a, b)
    case (Bool(x), Bool(y)) => x == y
    case (Int(x), Int(y)) => x == y
    case (Uint(x), Uint(y)) => x == y
    case (Float(x), Float(y)) => FloatEqual(x, y)
    case (Str(x), Str(y)) => x == y
    case _ => false
  }

  /**
   When a record is kept: it is a map, its `fieldName` entry is present and
   not null, that entry has the kind of `value`, the kind is one the filter
   compares, and the two are equal.
   */
  predicate Selected(rec: Value, fieldName: string, value: Value) {
    && rec.Object?
    && fieldName in rec.fields
    && !rec.fields[fieldName].Null?
    && !value.Null?
    && KindOf(rec.fields[fieldName]) == KindOf(value)
    && Comparable(KindOf(value))
    && ScalarEqual(rec.fields[fieldName], value)
  }

  /** The admission test of the filter, for one field and value. */
  function SelectedBy(fieldName: string, value: Value): Value -> bool {
    (rec: Value) => Selected(rec, fieldName, value)
  }

  /** The records `Selected` admits, in their original order. */
  function Where(records: seq<Value>, fieldName: string, value: Value): seq<Value> {
    FilterMap(records, SelectedBy(fieldName, value), Identity)
  }

  /** `All`: every record, unfiltered. */
  function All(records: seq<Value>): seq<Value> {
    records
  }

  /** The admission test that admits every record. */
  function AnyRecord(rec: Value): bool {
    true
  }

  /**
   `All` is the filter with a test that admits everything: nothing is dropped,
   and the order is kept, so every record `Where` keeps is also in `All`.
   */
  lemma {:induction false} AllIsUnfilteredWhere(records: seq<Value>)
    ensures All(records) == FilterMap(records, AnyRecord, Identity)
    decreases |records|
  {
    if |records| > 0 {
      var init := records[..|records| - 1];
      AllIsUnfilteredWhere(init);
      assert FilterMap(records, AnyRecord, Identity) == FilterMap(init, AnyRecord, Identity) + [Identity(records[|records| - 1])];
      assert records == init + [records[|records| - 1]];
    }
  }

  /**
   The scan `Where` performs: per record, check it is a map, look the field
   up, skip nil, compare kinds, then switch on the value's kind.  A nil record
   or a nil `value` has no kind to take, which crashes the scan, hence the
   precondition.
   */
  method WhereScan(records: seq<Value>, fieldName: string, value: Value) returns (result: seq<Value>)
    requires !value.Null?
    requires forall i :: 0 <= i < |records| ==> !records[i].Null?
    ensures result == Where(records, fieldName, value)
  {
    var temp: seq<Value> := [];
    var valueKind := KindOf(value);
    for i := 0 to |records|
      invariant temp == Where(records[..i], fieldName, value)
    {
      var v := records[i];
      assert records[..i + 1][..i] == records[..i];
      if KindOf(v) == KMap {
        var c := if fieldName in v.fields then v.fields[fieldName] else Null;
        if !c.Null? {
          if KindOf(c) == valueKind {
            match valueKind {
              case KInt =>
                if c.i == value.i { temp := temp + [v]; }
              case KUint =>
                if c.u == value.u { temp := temp + [v]; }
              case KFloat =>
                if FloatEqual(c.f, value.f) { temp := temp + [v]; }
              case KString =>
                if c.s == value.s { temp := temp + [v]; }
              case KBool =>
                if c.b == value.b { temp := temp + [v]; }
              case _ =>
            }
          }
        }
      }
    }
    assert records[..|records|] == records;
    result := [] + temp;
  }

  /** `Where` returns an order-preserving subsequence of its input. */
  lemma WhereIsSubsequence(records: seq<Value>, fieldName: string, value: Value)
    ensures IsSubsequence(Where(records, fieldName, value), records)
  {
    FilterIsSubsequence(records, SelectedBy(fieldName, value), Identity);
  }

  /**
   Filter correctness: a value occurs in the result exactly as often as in
   the input when `Selected` admits it, and not at all otherwise; a record
   that is not a map, lacks the field, or holds a null or differently-kinded
   field is dropped without any error.
   */
  lemma WhereCounts(records: seq<Value>, fieldName: string, value: Value)
    ensures forall x :: multiset(Where(records, fieldName, value))[x]
                        == (if Selected(x, fieldName, value) then multiset(records)[x] else 0)
  {
    FilterCounts(records, SelectedBy(fieldName, value), Identity);
  }

  /** Membership in both directions: a record is in the result iff it is in the input and selected. */
  lemma WhereMembership(records: seq<Value>, fieldName: string, value: Value)
    ensures forall x :: x in Where(records, fieldName, value) <==> x in records && Selected(x, fieldName, value)
  {
    WhereCounts(records, fieldName, value);
    forall x
      ensures x in Where(records, fieldName, value) <==> x in records && Selected(x, fieldName, value)
    {
      assert x in Where(records, fieldName, value) <==> multiset(Where(records, fieldName, value))[x] > 0;
      assert x in records <==> multiset(records)[x] > 0;
    }
  }

  /** A NaN filter value matches nothing, since NaN is not equal to any float. */
  lemma WhereNaNKeepsNothing(records: seq<Value>, fieldName: string, value: Value)
    requires value.Float? && IsNaN(value.f)
    ensures Where(records, fieldName, value) == []
  {
    FilterMapCount(records, SelectedBy(fieldName, value), Identity);
    forall x
      ensures !Selected(x, fieldName, value)
    {
    }
    assert AdmittedIndices(records, SelectedBy(fieldName, value)) == {};
  }
}

=== FILE: router.dfy ===
/**
 The HTTP route matcher: a registry of (path pattern, method, handler)
 entries, path matching segment by segment with `:name` wildcards, method
 filtering, the "exactly one survivor" dispatch rule and URL parameter
 extraction.  Handlers are named rather than called.
 */
module Router {
  import opened Wrappers
  import opened Text
  import opened Subsequences

  /** The name of the handler a route dispatches to. */
  type HandlerName = string

  datatype Route = Route(path: string, requestMethod: string, handler: HandlerName)

  /** `AddHandler`: one new route at the end of the registry, the earlier ones untouched. */
  function AddHandler(registry: seq<Route>, path: string, requestMethod: string, handler: HandlerName): (r: seq<Route>)
    ensures |r| == |registry| + 1
    ensures r[..|registry|] == registry
    ensures r[|registry|] == Route(path, requestMethod, handler)
  {
    registry + [Route(path, requestMethod, handler)]
  }

  /** The trailing-slash normalisation applied to both the request path and every route path. */
  function Normalize(p: string): (r: string)
    ensures EndsWith(r, '/')
    ensures EndsWith(p, '/') ==> r == p
    ensures !EndsWith(p, '/') ==> r == p + "/"
  {
    if EndsWith(p, '/') then p else p + "/"
  }

  /** A route segment admits a request segment when they are equal or the route segment holds a `:`. */
  predicate SegmentMatches(pattern: string, segment: string) {
    pattern == segment || ':' in pattern
  }

  /** The `/`-separated segments of a path once it is normalised. */
  function Segments(p: string): seq<string> {
    Split(Normalize(p), '/')
  }

  /** Equally many segments, and each route segment admits the request segment at its position. */
  predicate SegmentsMatch(master: seq<string>, slave: seq<string>) {
    |master| == |slave| && forall i :: 0 <= i < |master| ==> SegmentMatches(master[i], slave[i])
  }

  /** A route path matches a request path when their normalised segments match. */
  predicate PathMatches(routePath: string, path: string) {
    SegmentsMatch(Segments(routePath), Segments(path))
  }

  /** A route as `filterRoutesByPath` reports it: with its path normalised. */
  function Normalized(route: Route): Route {
    route.(path := Normalize(route.path))
  }

  /** The admission test of path matching, for one request path. */
  function MatchesPath(path: string): Route -> bool {
    (rt: Route) => PathMatches(rt.path, path)
  }

  /** The routes matching `path`, normalised, in registration order. */
  function MatchingRoutes(registry: seq<Route>, path: string): seq<Route> {
    FilterMap(registry, MatchesPath(path), Normalized)
  }

  /** The inner loop of `filterRoutesByPath`: stop at the first segment pair that does not match. */
  method MatchSegments(master: seq<string>, slave: seq<string>) returns (matched: bool)
    requires |master| == |slave|
    ensures matched <==> forall i :: 0 <= i < |master| ==> SegmentMatches(master[i], slave[i])
  {
    matched := true;
    var i := 0;
    while i < |master|
      invariant 0 <= i <= |master|
      invariant forall j :: 0 <= j < i ==> SegmentMatches(master[j], slave[j])
    {
      if master[i] != slave[i] && ':' !in master[i] {
        matched := false;
        break;
      }
      i := i + 1;
    }
  }

  /**
   `filterRoutesByPath`: normalise the request path (once, inside the loop)
   and each route's path, split both on `/` and keep the routes whose
   segments match.  The registry itself is a value and stays as it was.
   */
  method FilterRoutesByPath(registry: seq<Route>, path: string) returns (matched: seq<Route>)
    ensures matched == MatchingRoutes(registry, path)
  {
    matched := [];
    var p := path;
    for k := 0 to |registry|
      invariant matched == MatchingRoutes(registry[..k], path)
      invariant p == path || p == Normalize(path)
    {
      var route := registry[k];
      if !EndsWith(p, '/') {
        p := p + "/";
      }
      if !EndsWith(route.path, '/') {
        route := route.(path := route.path + "/");
      }
      assert p == Normalize(path);
      assert route == Normalized(registry[k]);
      var master := Split(route.path, '/');
      var slave := Split(p, '/');
      if |master| == |slave| {
        var ok := MatchSegments(master, slave);
        if ok {
          matched := matched + [route];
        }
      }
      assert registry[..k + 1][..k] == registry[..k];
    }
    assert registry[..|registry|] == registry;
  }

  /** The admission test of method filtering. */
  function HasMethod(requestMethod: string): Route -> bool {
    (rt: Route) => rt.requestMethod == requestMethod
  }

  /** `filterMatchedRoutesByMethod`: the routes whose method is `requestMethod`, in order. */
  function FilterByMethod(routes: seq<Route>, requestMethod: string): seq<Route> {
    FilterMap(routes, HasMethod(requestMethod), Identity)
  }

  /** Route segments with a `:` are parameters, and the request supplies a segment for each. */
  predicate ParamsInRange(master: seq<string>, slave: seq<string>) {
    forall i :: 0 <= i < |master| && ':' in master[i] ==> i < |slave|
  }

  /** The parameter name a route segment declares: the segment with every `:` removed. */
  function ParamName(segment: string): string {
    RemoveAll(segment, ':')
  }

  /** Parameters gathered left to right over the segments, a later name overwriting an earlier one. */
  function ParamsOf(master: seq<string>, slave: seq<string>): map<string, string>
    requires ParamsInRange(master, slave)
    decreases |master|
  {
    if |master| == 0 then map[]
    else
      var k := |master| - 1;
      var earlier := ParamsOf(master[..k], slave);
      if ':' in master[k] then earlier[ParamName(master[k]) := slave[k]] else earlier
  }

  /**
   `extractURLParams` over a route path and the raw request URI.  The source
   indexes the request's segments without a bounds check; the precondition
   states the bound it relies on.
   */
  method ExtractURLParams(master: string, slave: string) returns (res: map<string, string>)
    requires ParamsInRange(Split(master, '/'), Split(slave, '/'))
    ensures res == ParamsOf(Split(master, '/'), Split(slave, '/'))
  {
    res := map[];
    var masterArr := Split(master, '/');
    var slaveArr := Split(slave, '/');
    for i := 0 to |masterArr|
      invariant res == ParamsOf(masterArr[..i], slaveArr)
    {
      assert masterArr[..i + 1][..i] == masterArr[..i];
      if ':' in masterArr[i] {
        res := res[RemoveAll(masterArr[i], ':') := slaveArr[i]];
      }
    }
    assert masterArr[..|masterArr|] == masterArr;
  }

  /** The outcome of dispatch: not found, or one route with its URL parameters. */
  datatype Dispatch = NotFound | Handle(route: Route, params: map<string, string>)

  /**
   The dispatch decision of `mainEngineHandler`: no path match is not found,
   and so is any number of method matches other than one.
   */
  function MainEngineHandler(registry: seq<Route>, requestMethod: string, uri: string): (r: Dispatch)
    ensures r.Handle? <==> |FilterByMethod(MatchingRoutes(registry, uri), requestMethod)| == 1
    ensures r.Handle? ==> r.route == FilterByMethod(MatchingRoutes(registry, uri), requestMethod)[0]
    ensures r.Handle? ==> r.route.requestMethod == requestMethod && EndsWith(r.route.path, '/') && PathMatches(r.route.path, uri)
    ensures r.Handle? ==> && ParamsInRange(Split(r.route.path, '/'), Split(uri, '/'))
                          && r.params == ParamsOf(Split(r.route.path, '/'), Split(uri, '/'))
  {
    var byPath := MatchingRoutes(registry, uri);
    if |byPath| == 0 then
      assert FilterByMethod(byPath, requestMethod) == [];
      NotFound
    else
      var byMethod := FilterByMethod(byPath, requestMethod);
      if |byMethod| != 1 then NotFound
      else
        var route := byMethod[0];
        FilterByMethodMembership(byPath, requestMethod);
        MatchingRoutesShape(registry, uri);
        DispatchedParamsInRange(route.path, uri);
        Handle(route, ParamsOf(Split(route.path, '/'), Split(uri, '/')))
  }

  /** Why `GetURLParam` can fail. */
  datatype ParamError = NoParam

  /** `GetURLParam`: a missing parameter and an empty one are both the `NoParam` error. */
  function GetURLParam(params: map<string, string>, key: string): (r: Result<string, ParamError>)
    ensures r.Ok? <==> key in params && params[key] != ""
    ensures r.Ok? ==> r.value == params[key]
    ensures r.Err? ==> r.error == NoParam
  {
    if key !in params || params[key] == "" then Err(NoParam) else Ok(params[key])
  }

  // ---------------------------------------------------------------------
  // Properties of the matcher

  /** Normalising a path does not change which requests it matches. */
  lemma NormalizedRouteMatchesAlike(routePath: string, path: string)
    ensures PathMatches(Normalize(routePath), path) == PathMatches(routePath, path)
  {
    assert Normalize(Normalize(routePath)) == Normalize(routePath);
  }

  /** Every route path matching reports is normalised and matches the request. */
  lemma MatchingRoutesShape(registry: seq<Route>, path: string)
    ensures forall rt :: rt in MatchingRoutes(registry, path) ==> EndsWith(rt.path, '/') && PathMatches(rt.path, path)
  {
    FilterMapMembership(registry, MatchesPath(path), Normalized);
    forall rt | rt in MatchingRoutes(registry, path)
      ensures EndsWith(rt.path, '/') && PathMatches(rt.path, path)
    {
      var i :| 0 <= i < |registry| && MatchesPath(path)(registry[i]) && rt == Normalized(registry[i]);
      NormalizedRouteMatchesAlike(registry[i].path, path);
    }
  }

  /** A route is reported iff it is registered and matches, and it is reported with its path normalised. */
  lemma MatchingRoutesMembership(registry: seq<Route>, path: string)
    ensures forall rt :: rt in MatchingRoutes(registry, path) ==>
      exists i :: 0 <= i < |registry| && PathMatches(registry[i].path, path) && rt == Normalized(registry[i])
    ensures forall i :: 0 <= i < |registry| && PathMatches(registry[i].path, path) ==>
      Normalized(registry[i]) in MatchingRoutes(registry, path)
  {
    FilterMapMembership(registry, MatchesPath(path), Normalized);
  }

  /** A request path and the same path with a slash appended select the same routes. */
  lemma {:induction false} TrailingSlashIgnored(registry: seq<Route>, path: string)
    requires !EndsWith(path, '/')
    ensures MatchingRoutes(registry, path) == MatchingRoutes(registry, path + "/")
    decreases |registry|
  {
    assert Segments(path) == Segments(path + "/");
    if |registry| > 0 {
      TrailingSlashIgnored(registry[..|registry| - 1], path);
    }
  }

  /** Method filtering keeps exactly the routes with the request's method. */
  lemma FilterByMethodMembership(routes: seq<Route>, requestMethod: string)
    ensures forall rt :: rt in FilterByMethod(routes, requestMethod) <==> rt in routes && rt.requestMethod == requestMethod
  {
    FilterMapMembership(routes, HasMethod(requestMethod), Identity);
    forall rt | rt in routes && rt.requestMethod == requestMethod
      ensures rt in FilterByMethod(routes, requestMethod)
    {
      var i :| 0 <= i < |routes| && routes[i] == rt;
    }
  }

  /** Method filtering keeps the order of its input. */
  lemma FilterByMethodIsSubsequence(routes: seq<Route>, requestMethod: string)
    ensures IsSubsequence(FilterByMethod(routes, requestMethod), routes)
  {
    FilterIsSubsequence(routes, HasMethod(requestMethod), Identity);
  }

  /** The admission test of both filters together, for one request. */
  function Dispatchable(requestMethod: string, uri: string): Route -> bool {
    (rt: Route) => rt.requestMethod == requestMethod && PathMatches(rt.path, uri)
  }

  /** The registry positions whose route both has the method and matches the path. */
  function RouteIndices(registry: seq<Route>, requestMethod: string, uri: string): set<int> {
    AdmittedIndices(registry, Dispatchable(requestMethod, uri))
  }

  /** The survivors of both filters are the normalised registry routes that have the method and match the path. */
  lemma Survivors(registry: seq<Route>, requestMethod: string, uri: string)
    ensures FilterByMethod(MatchingRoutes(registry, uri), requestMethod)
         == FilterMap(registry, Dispatchable(requestMethod, uri), Normalized)
    ensures |FilterByMethod(MatchingRoutes(registry, uri), requestMethod)| == |RouteIndices(registry, requestMethod, uri)|
  {
    FilterMapThenFilter(registry, MatchesPath(uri), Normalized, HasMethod(requestMethod), Identity,
                        Dispatchable(requestMethod, uri), Normalized);
    FilterMapCount(registry, Dispatchable(requestMethod, uri), Normalized);
  }

  /**
   The dispatch rule, stated over the registry: a handler runs iff exactly
   one registered route has the method and matches the path, and the route
   handed to it is that one, normalised.
   */
  lemma DispatchIffUniqueRoute(registry: seq<Route>, requestMethod: string, uri: string)
    ensures MainEngineHandler(registry, requestMethod, uri).Handle? <==> |RouteIndices(registry, requestMethod, uri)| == 1
    ensures forall i :: (MainEngineHandler(registry, requestMethod, uri).Handle?
                         && i in RouteIndices(registry, requestMethod, uri))
                        ==> MainEngineHandler(registry, requestMethod, uri).route == Normalized(registry[i])
  {
    Survivors(registry, requestMethod, uri);
    forall i | MainEngineHandler(registry, requestMethod, uri).Handle? && i in RouteIndices(registry, requestMethod, uri)
      ensures MainEngineHandler(registry, requestMethod, uri).route == Normalized(registry[i])
    {
      FilterMapSingle(registry, Dispatchable(requestMethod, uri), Normalized, i);
    }
  }

  /**
   The bounds check extraction omits is never needed on a dispatched route:
   a normalised route's last segment is empty, so its parameters sit at
   positions the request has, with or without a trailing slash.
   */
  lemma DispatchedParamsInRange(routePath: string, uri: string)
    requires EndsWith(routePath, '/') && PathMatches(routePath, uri)
    ensures ParamsInRange(Split(routePath, '/'), Split(uri, '/'))
  {
    var q := routePath[..|routePath| - 1];
    assert routePath == q + "/";
    SplitAppendSeparator(q, '/');
    var master := Split(routePath, '/');
    assert master[|master| - 1] == "";
    if !EndsWith(uri, '/') {
      SplitAppendSeparator(uri, '/');
    }
  }

  /** Parameter names are exactly the `:`-segments of the route with the `:` removed. */
  lemma {:induction false} ParamKeys(master: seq<string>, slave: seq<string>)
    requires ParamsInRange(master, slave)
    ensures forall k :: k in ParamsOf(master, slave) <==>
      exists i :: 0 <= i < |master| && ':' in master[i] && ParamName(master[i]) == k
    decreases |master|
  {
    if |master| > 0 {
      var n := |master| - 1;
      var init := master[..n];
      ParamKeys(init, slave);
      forall k | k in ParamsOf(master, slave)
        ensures exists i :: 0 <= i < |master| && ':' in master[i] && ParamName(master[i]) == k
      {
        if k in ParamsOf(init, slave) {
          var i :| 0 <= i < |init| && ':' in init[i] && ParamName(init[i]) == k;
          assert master[i] == init[i];
        }
      }
      forall k | exists i :: 0 <= i < |master| && ':' in master[i] && ParamName(master[i]) == k
        ensures k in ParamsOf(master, slave)
      {
        var i :| 0 <= i < |master| && ':' in master[i] && ParamName(master[i]) == k;
        if i < n {
          assert init[i] == master[i];
        }
      }
    }
  }

  /** Each parameter's value is the request segment at the last route position declaring that name. */
  lemma {:induction false} ParamValueLastWins(master: seq<string>, slave: seq<string>, i: int)
    requires ParamsInRange(master, slave)
    requires 0 <= i < |master| && ':' in master[i]
    requires forall j :: i < j < |master| && ':' in master[j] ==> ParamName(master[j]) != ParamName(master[i])
    ensures ParamName(master[i]) in ParamsOf(master, slave)
    ensures ParamsOf(master, slave)[ParamName(master[i])] == slave[i]
    decreases |master|
  {
    var n := |master| - 1;
    if i < n {
      var init := master[..n];
      assert init[i] == master[i];
      ParamValueLastWins(init, slave, i);
    }
  }
}

=== FILE: router_examples.dfy ===
/**
 The route table the product controller registers, as concrete dispatch
 scenarios for the matcher.
 */
module RouterExamples {
  import opened Wrappers
  import opened Text
  import opened Router
  import opened Subsequences

  /** The five product routes, registered in the controller's order. */
  function ToyRoutes(): seq<Route> {
    var r0 := AddHandler([], "/v1/toys", "GET", "GetAll");
    var r1 := AddHandler(r0, "/v1/toys/:iid", "GET", "GetOne");
    var r2 := AddHandler(r1, "/v1/toys/:iid", "DELETE", "DeleteOne");
    var r3 := AddHandler(r2, "/v1/toys/:iid", "PATCH", "UpdateOne");
    AddHandler(r3, "/v1/toys/:iid", "PUT", "CreateProduct")
  }

  lemma RouteItemSegments()
    ensures Split("/v1/toys/:iid/", '/') == ["", "v1", "toys", ":iid", ""]
    ensures Segments("/v1/toys/:iid") == ["", "v1", "toys", ":iid", ""]
  {
    ItemRouteSplit();
    assert Normalize("/v1/toys/:iid") == "/v1/toys/:iid/";
  }

  /** The normalised item route splits into its five segments. */
  lemma ItemRouteSplit()
    ensures Split("/v1/toys/:iid/", '/') == ["", "v1", "toys", ":iid", ""]
  {
    var parts := ["", "v1", "toys", ":iid", ""];
    ItemRouteJoin();
    SplitJoin(parts, '/');
  }

  /** The item route's segments joined back with `/`. */
  lemma ItemRouteJoin()
    ensures Join(["", "v1", "toys", ":iid", ""], '/') == "/v1/toys/:iid/"
  {
    var tail := [":iid", ""];
    assert Join(tail, '/') == ":iid/" by { assert tail[1..] == [""]; }
    assert Join(["toys"] + tail, '/') == "toys/:iid/" by { assert (["toys"] + tail)[1..] == tail; }
    assert Join(["v1", "toys"] + tail, '/') == "v1/toys/:iid/" by {
      assert (["v1", "toys"] + tail)[1..] == ["toys"] + tail;
    }
    assert ["", "v1", "toys", ":iid", ""] == ["", "v1", "toys"] + tail;
    assert (["", "v1", "toys"] + tail)[1..] == ["v1", "toys"] + tail;
  }

  lemma RouteListSegments()
    ensures Segments("/v1/toys") == ["", "v1", "toys", ""]
  {
    var parts := ["", "v1", "toys", ""];
    assert Split("/v1/toys/", '/') == parts by {
      assert Join(parts, '/') == "/v1/toys/";
      SplitJoin(parts, '/');
    }
    assert Normalize("/v1/toys") == "/v1/toys/";
  }

  /** The request for one product: `/v1/toys/` followed by its identity. */
  function ItemRequest(id: string): string {
    "/v1/toys/" + id
  }

  /** A non-empty identity without a slash is the fourth segment of its item request. */
  lemma ItemRequestSplit(id: string)
    requires id != "" && '/' !in id
    ensures Split(ItemRequest(id), '/') == ["", "v1", "toys", id]
  {
    var y := "toys" + ['/'] + id;
    var x := "v1" + ['/'] + y;
    assert ItemRequest(id) == "" + ['/'] + x;
    assert Split(y, '/') == ["toys", id] by {
      SplitAroundSeparator("toys", id, '/');
      SplitWithoutSeparator("toys", '/');
      SplitWithoutSeparator(id, '/');
    }
    assert Split(x, '/') == ["v1", "toys", id] by {
      SplitAroundSeparator("v1", y, '/');
      SplitWithoutSeparator("v1", '/');
    }
    SplitAroundSeparator("", x, '/');
  }

  /** Normalising an item request appends the slash its identity does not end with. */
  lemma ItemRequestSegments(id: string)
    requires id != "" && '/' !in id
    ensures Segments(ItemRequest(id)) == ["", "v1", "toys", id, ""]
  {
    var r := ItemRequest(id);
    assert r[|r| - 1] == id[|id| - 1] && id[|id| - 1] in id;
    assert Normalize(r) == r + ['/'];
    ItemRequestSplit(id);
    SplitAppendSeparator(r, '/');
  }

  /** The table spelled out. */
  lemma ToyRoutesTable()
    ensures ToyRoutes() == [Route("/v1/toys", "GET", "GetAll"),
                            Route("/v1/toys/:iid", "GET", "GetOne"),
                            Route("/v1/toys/:iid", "DELETE", "DeleteOne"),
                            Route("/v1/toys/:iid", "PATCH", "UpdateOne"),
                            Route("/v1/toys/:iid", "PUT", "CreateProduct")]
  {
  }

  /** Segment by segment, the item pattern admits an item request: `:iid` takes the identity. */
  lemma ItemSegmentsMatch(id: string)
    ensures SegmentsMatch(["", "v1", "toys", ":iid", ""], ["", "v1", "toys", id, ""])
  {
    var m := ["", "v1", "toys", ":iid", ""];
    var s := ["", "v1", "toys", id, ""];
    forall i | 0 <= i < |m|
      ensures SegmentMatches(m[i], s[i])
    {
      if i == 3 {
        assert m[3][0] == ':';
      } else {
        assert m[i] == s[i];
      }
    }
  }

  /** The item pattern admits every item request. */
  lemma ItemRouteMatchesItem(id: string)
    requires id != "" && '/' !in id
    ensures PathMatches("/v1/toys/:iid", ItemRequest(id))
  {
    RouteItemSegments();
    ItemRequestSegments(id);
    ItemSegmentsMatch(id);
  }

  /** When one route alone carries the method, it is the only candidate. */
  lemma OnlyRouteWithMethod(registry: seq<Route>, requestMethod: string, uri: string, k: int)
    requires 0 <= k < |registry| && PathMatches(registry[k].path, uri)
    requires forall i :: 0 <= i < |registry| ==> (registry[i].requestMethod == requestMethod <==> i == k)
    ensures RouteIndices(registry, requestMethod, uri) == {k}
  {
    var keep := Dispatchable(requestMethod, uri);
    forall i | 0 <= i < |registry|
      ensures keep(registry[i]) <==> i == k
    {
    }
  }

  /** The methods of the table: PUT only at the last position, which holds the item pattern. */
  lemma ToyRouteMethods()
    ensures |ToyRoutes()| == 5 && ToyRoutes()[4].path == "/v1/toys/:iid"
    ensures forall i :: 0 <= i < |ToyRoutes()| ==> (ToyRoutes()[i].requestMethod == "PUT" <==> i == 4)
  {
    ToyRoutesTable();
  }

  /** Only the last route both has method PUT and matches an item request. */
  lemma PutItemIndices(id: string)
    requires id != "" && '/' !in id
    ensures RouteIndices(ToyRoutes(), "PUT", ItemRequest(id)) == {4}
  {
    ToyRouteMethods();
    ItemRouteMatchesItem(id);
    OnlyRouteWithMethod(ToyRoutes(), "PUT", ItemRequest(id), 4);
  }

  /** The item route binds `iid` to the request's fourth segment. */
  lemma ItemParams(id: string)
    ensures ParamsInRange(["", "v1", "toys", ":iid", ""], ["", "v1", "toys", id])
    ensures ParamsOf(["", "v1", "toys", ":iid", ""], ["", "v1", "toys", id]) == map["iid" := id]
  {
    var s := ["", "v1", "toys", id];
    var prefix := ["", "v1", "toys"];
    var m4 := prefix + [":iid"];
    assert ParamsOf(prefix, s) == map[] by {
      assert forall i :: 0 <= i < |prefix| ==> ':' !in prefix[i];
      NoParams(prefix, s);
    }
    assert ParamsOf(m4, s) == map["iid" := id] by {
      assert m4[..3] == prefix;
      IidParamName();
    }
    assert ["", "v1", "toys", ":iid", ""][..4] == m4;
  }

  /** The name the item segment declares. */
  lemma IidParamName()
    ensures ParamName(":iid") == "iid"
  {
    assert ":iid" == [':'] + "iid";
    assert RemoveAll(":iid", ':') == RemoveAll("iid", ':');
  }

  /** A route without `:`-segments declares no parameters. */
  lemma {:induction false} NoParams(master: seq<string>, slave: seq<string>)
    requires forall i :: 0 <= i < |master| ==> ':' !in master[i]
    ensures ParamsInRange(master, slave) && ParamsOf(master, slave) == map[]
    decreases |master|
  {
    if |master| > 0 {
      NoParams(master[..|master| - 1], slave);
    }
  }

  /** The last registered route, the create handler on the item pattern. */
  lemma ToyRouteLast()
    ensures |ToyRoutes()| == 5 && ToyRoutes()[4] == Route("/v1/toys/:iid", "PUT", "CreateProduct")
  {
    ToyRoutesTable();
  }

  /** A PUT on an item request is dispatched, to the create route with its path normalised. */
  lemma PutDispatchesCreateRoute(id: string)
    requires id != "" && '/' !in id
    ensures MainEngineHandler(ToyRoutes(), "PUT", ItemRequest(id)).Handle?
    ensures MainEngineHandler(ToyRoutes(), "PUT", ItemRequest(id)).route == Route("/v1/toys/:iid/", "PUT", "CreateProduct")
  {
    var h := MainEngineHandler(ToyRoutes(), "PUT", ItemRequest(id));
    assert h.Handle? && h.route == Normalized(ToyRoutes()[4]) by {
      PutItemIndices(id);
      DispatchIffUniqueRoute(ToyRoutes(), "PUT", ItemRequest(id));
    }
    assert Normalized(ToyRoutes()[4]) == Route("/v1/toys/:iid/", "PUT", "CreateProduct") by {
      ToyRouteLast();
      assert Normalize("/v1/toys/:iid") == "/v1/toys/:iid/";
    }
  }

  /**
   A PUT on `/v1/toys/<id>` reaches the create handler, which finds `iid`
   bound to the identity, so its `GetURLParam` lookup succeeds with it.
   */
  lemma PutSelectsCreate(id: string)
    requires id != "" && '/' !in id
    ensures MainEngineHandler(ToyRoutes(), "PUT", ItemRequest(id))
         == Handle(Route("/v1/toys/:iid/", "PUT", "CreateProduct"), map["iid" := id])
    ensures GetURLParam(MainEngineHandler(ToyRoutes(), "PUT", ItemRequest(id)).params, "iid") == Ok(id)
  {
    var h := MainEngineHandler(ToyRoutes(), "PUT", ItemRequest(id));
    PutDispatchesCreateRoute(id);
    assert h.params == ParamsOf(Split("/v1/toys/:iid/", '/'), Split(ItemRequest(id), '/'));
    assert h.params == map["iid" := id] by {
      ItemRouteSplit();
      ItemRequestSplit(id);
      ItemParams(id);
    }
  }

  /** No route is registered for POST, so every POST request is answered with not-found. */
  lemma PostIsNotFound(uri: string)
    ensures MainEngineHandler(ToyRoutes(), "POST", uri) == NotFound
  {
    ToyRoutesTable();
    var reg := ToyRoutes();
    forall i | 0 <= i < |reg|
      ensures i !in RouteIndices(reg, "POST", uri)
    {
      assert reg[i].requestMethod != "POST";
    }
    assert RouteIndices(reg, "POST", uri) == {};
    DispatchIffUniqueRoute(reg, "POST", uri);
  }

  lemma RequestListSplit()
    ensures Split("/v1/toys", '/') == ["", "v1", "toys"]
  {
    assert Join(["", "v1", "toys"], '/') == "/v1/toys";
    SplitJoin(["", "v1", "toys"], '/');
  }

  /** The list pattern and the item pattern never admit the same request: their segment counts differ. */
  lemma ListAndItemDisjoint(uri: string)
    ensures !(PathMatches("/v1/toys", uri) && PathMatches("/v1/toys/:iid", uri))
  {
    RouteListSegments();
    RouteItemSegments();
  }

  /** The list pattern admits the list request. */
  lemma ListRouteMatchesList()
    ensures PathMatches("/v1/toys", "/v1/toys")
  {
    RouteListSegments();
  }

  /** The GET routes of the table: the list route first, then the item route. */
  lemma ToyGetRoutes()
    ensures |ToyRoutes()| == 5
    ensures ToyRoutes()[0] == Route("/v1/toys", "GET", "GetAll")
    ensures ToyRoutes()[1].path == "/v1/toys/:iid"
    ensures forall i :: 2 <= i < |ToyRoutes()| ==> ToyRoutes()[i].requestMethod != "GET"
  {
    ToyRoutesTable();
  }

  /** Position by position, which routes admit `GET /v1/toys`. */
  lemma GetListAdmission()
    ensures |ToyRoutes()| == 5
    ensures forall i :: 0 <= i < |ToyRoutes()| ==> (Dispatchable("GET", "/v1/toys")(ToyRoutes()[i]) <==> i == 0)
  {
    ToyGetRoutes();
    var reg := ToyRoutes();
    var keep := Dispatchable("GET", "/v1/toys");
    forall i | 0 <= i < |reg|
      ensures keep(reg[i]) <==> i == 0
    {
      if i == 0 {
        ListRouteMatchesList();
      } else if i == 1 {
        ListAndItemDisjoint("/v1/toys");
        ListRouteMatchesList();
      }
    }
  }

  /** The positions a predicate admits, when it admits exactly one. */
  lemma SingleAdmitted(registry: seq<Route>, keep: Route -> bool, k: int)
    requires 0 <= k < |registry|
    requires forall i :: 0 <= i < |registry| ==> (keep(registry[i]) <==> i == k)
    ensures AdmittedIndices(registry, keep) == {k}
  {
  }

  /** Only the first route both has method GET and matches `/v1/toys`. */
  lemma GetListIndices()
    ensures RouteIndices(ToyRoutes(), "GET", "/v1/toys") == {0}
  {
    GetListAdmission();
    SingleAdmitted(ToyRoutes(), Dispatchable("GET", "/v1/toys"), 0);
  }

  /** The list route declares no parameter. */
  lemma ListParams()
    ensures ParamsInRange(["", "v1", "toys", ""], ["", "v1", "toys"])
    ensures ParamsOf(["", "v1", "toys", ""], ["", "v1", "toys"]) == map[]
  {
    var route := ["", "v1", "toys", ""];
    assert forall i :: 0 <= i < |route| ==> ':' !in route[i];
    NoParams(route, ["", "v1", "toys"]);
  }

  /** `GET /v1/toys` reaches the list handler with no parameters. */
  lemma GetListSelectsGetAll()
    ensures MainEngineHandler(ToyRoutes(), "GET", "/v1/toys") == Handle(Route("/v1/toys/", "GET", "GetAll"), map[])
  {
    GetListIndices();
    DispatchIffUniqueRoute(ToyRoutes(), "GET", "/v1/toys");
    ToyGetRoutes();
    RouteListSegments();
    RequestListSplit();
    ListParams();
  }
}

=== FILE: store.dfy ===
/**
 The embedded document store: one image holding every collection's records
 and every collection's identity counter.  Each operation loads the image,
 makes sure the collection it names exists, changes the image in memory and
 hands back what would be written.  Reading the backing file is a parameter
 (`ReadOutcome`); writing it is returning the new image.
 */
module Store {
  import opened Wrappers
  import opened Values
  import Decimal
  import Text

  /**
   The whole persisted image: collection name to records, collection name to
   the last identity minted there, and the `meta.total` field that no
   operation ever updates.
   */
  datatype Image = Image(items: map<string, seq<Value>>, indexes: map<string, int>, total: int)

  /** What replaces an image whose file content does not decode. */
  const EmptyImage: Image := Image(map[], map[], 0)

  /** What reading the backing file gave: an error, or bytes that did or did not decode. */
  datatype ReadOutcome = Unreadable(reason: string) | Readable(decoded: Option<Image>)

  /** `readDatabase`: an unreadable file is an error; an undecodable one heals to the empty image. */
  function ReadDatabase(f: ReadOutcome): (r: Result<Image, string>)
    ensures r.Err? <==> f.Unreadable?
    ensures f.Unreadable? ==> r.error == f.reason
    ensures f == Readable(None) ==> r == Ok(EmptyImage)
    ensures f.Readable? && f.decoded.Some? ==> r == Ok(f.decoded.value)
  {
    match f
    case Unreadable(reason) => Err(reason)
    case Readable(None) => Ok(EmptyImage)
    case Readable(Some(img)) => Ok(img)
  }

  /** The records stored under `name`; an absent collection reads as empty (Go's nil slice). */
  function Records(img: Image, name: string): seq<Value> {
    if name in img.items then img.items[name] else []
  }

  /** The counter stored under `name`; an absent counter reads as 0 (Go's zero value). */
  function Counter(img: Image, name: string): int {
    if name in img.indexes then img.indexes[name] else 0
  }

  /**
   The lazy-creation step of `getCollections`: a collection missing from
   `items` gets an empty record list and a zero counter; an existing one is
   left exactly as it is.
   */
  function EnsureCollection(img: Image, name: string): (r: Image)
    ensures name in r.items
    ensures name in img.items ==> r == img
    ensures name !in img.items ==> r.items[name] == [] && name in r.indexes && r.indexes[name] == 0
    ensures r.items - {name} == img.items - {name}
    ensures r.indexes - {name} == img.indexes - {name}
    ensures r.total == img.total
  {
    if name in img.items then img
    else img.(items := img.items[name := []], indexes := img.indexes[name := 0])
  }

  /** `getCollections`: load the image, then make sure `name` exists in it. */
  function GetCollections(f: ReadOutcome, name: string): (r: Result<Image, string>)
    ensures r.Err? <==> f.Unreadable?
    ensures r.Ok? ==> name in r.value.items
    ensures r.Ok? ==> r.value.items[name] == Records(ReadDatabase(f).value, name)
    ensures r.Ok? ==> r.value == EnsureCollection(ReadDatabase(f).value, name)
  {
    match ReadDatabase(f)
    case Err(e) => Err(e)
    case Ok(img) => Ok(EnsureCollection(img, name))
  }

  /** The fields `WriteToCollection` sets on a new record. */
  const CreateStamps: set<string> := {"id", "created_at", "updated_at"}

  /** A new record with its identity and both timestamps set. */
  function StampCreated(rec: map<string, Value>, id: string, now: Timestamp): (r: map<string, Value>)
    ensures r.Keys == rec.Keys + CreateStamps
    ensures r["id"] == Str(id) && r["created_at"] == Str(now) && r["updated_at"] == Str(now)
    ensures forall k :: k in rec && k !in CreateStamps ==> r[k] == rec[k]
  {
    rec["id" := Str(id)]["created_at" := Str(now)]["updated_at" := Str(now)]
  }

  /** The image after a create, and the record as it was stored. */
  datatype Created = Created(image: Image, record: map<string, Value>)

  /**
   The in-memory part of `WriteToCollection`: ensure the collection, mint the
   identity `counter + 1`, stamp the record, append it and bump the counter.
   */
  function Create(img: Image, name: string, rec: map<string, Value>, now: Timestamp): (r: Created)
    ensures var last := if name in img.items then Counter(img, name) else 0;
      && r.record == StampCreated(rec, Decimal.Itoa(last + 1), now)
      && name in r.image.items
      && r.image.items[name] == Records(img, name) + [Object(r.record)]
      && Counter(r.image, name) == last + 1
    ensures r.image.items - {name} == img.items - {name}
    ensures r.image.indexes - {name} == img.indexes - {name}
    ensures r.image.total == img.total
  {
    var e := EnsureCollection(img, name);
    var lastId := Counter(e, name);
    var stamped := StampCreated(rec, Decimal.Itoa(lastId + 1), now);
    Created(e.(items := e.items[name := e.items[name] + [Object(stamped)]],
               indexes := e.indexes[name := lastId + 1]),
            stamped)
  }

  /** `WriteToCollection`: a create on the image read from the backing file. */
  function WriteToCollection(f: ReadOutcome, name: string, rec: map<string, Value>, now: Timestamp)
    : (r: Result<Created, string>)
    ensures r.Err? <==> f.Unreadable?
    ensures r.Ok? ==> r.value == Create(ReadDatabase(f).value, name, rec, now)
    ensures r.Ok? ==> Records(r.value.image, name) == Records(ReadDatabase(f).value, name) + [Object(r.value.record)]
    ensures r.Ok? ==> "id" in r.value.record && r.value.record["id"] == Str(Decimal.Itoa(
      if name in ReadDatabase(f).value.items then Counter(ReadDatabase(f).value, name) + 1 else 1))
  {
    match GetCollections(f, name)
    case Err(e) => Err(e)
    case Ok(_) => Ok(Create(ReadDatabase(f).value, name, rec, now))
  }

  /** `GetFromCollection`: the stored records in order, empty for an absent or empty collection. */
  function GetFromCollection(f: ReadOutcome, name: string): (r: Result<seq<Value>, string>)
    ensures r.Err? <==> f.Unreadable?
    ensures r.Ok? ==> r.value == Records(ReadDatabase(f).value, name)
  {
    match GetCollections(f, name)
    case Err(e) => Err(e)
    case Ok(img) => Ok(img.items[name])
  }

  /**
   How `UpdateCollection` was handed its list: a bare slice names the slice
   type; a pointer to a slice names the type of its first element.
   */
  datatype ListArgument = BareSlice(sliceTypeName: string) | SlicePointer(elemTypeName: string)

  function TypeNameOf(arg: ListArgument): string {
    match arg
    case BareSlice(n) => n
    case SlicePointer(n) => n
  }

  /** The type name of a Go `string`, which is what `getCollectionName(tmpName)` always yields. */
  const StringTypeName: string := "string"

  /** The `"*"`-prefixed name `UpdateCollection` stores under. */
  function StarName(name: string): (r: string)
    ensures Text.StartsWith(r, '*')
    ensures Text.StartsWith(name, '*') ==> r == name
    ensures !Text.StartsWith(name, '*') ==> r == "*" + name
  {
    if Text.StartsWith(name, '*') then name else "*" + name
  }

  /** A replacement record with its last-update time set. */
  function StampUpdated(rec: map<string, Value>, now: Timestamp): (r: map<string, Value>)
    ensures r.Keys == rec.Keys + {"updated_at"}
    ensures r["updated_at"] == Str(now)
    ensures forall k :: k in rec && k != "updated_at" ==> r[k] == rec[k]
  {
    rec["updated_at" := Str(now)]
  }

  /** Every replacement record stamped, in the order supplied. */
  function StampAllUpdated(list: seq<map<string, Value>>, now: Timestamp): (r: seq<Value>)
    ensures |r| == |list|
    ensures forall i :: 0 <= i < |list| ==> r[i] == Object(StampUpdated(list[i], now))
    decreases |list|
  {
    if |list| == 0 then [] else [Object(StampUpdated(list[0], now))] + StampAllUpdated(list[1..], now)
  }

  /**
   The in-memory part of `UpdateCollection`.  It ensures the collection named
   by the argument's type, then stores, under the `"*"`-prefixed form of that
   name, the records of the collection named `"string"` followed by the
   stamped replacement list.  Counters are only touched by the ensure step.
   A pointer argument needs a first element to take its type from.
   */
  function Replace(img: Image, arg: ListArgument, newList: seq<map<string, Value>>, now: Timestamp)
    : (r: Image)
    requires arg.SlicePointer? ==> |newList| > 0
    ensures var ensured := EnsureCollection(img, TypeNameOf(arg));
      && StarName(TypeNameOf(arg)) in r.items
      && r.items[StarName(TypeNameOf(arg))] == Records(ensured, StringTypeName) + StampAllUpdated(newList, now)
      && r.indexes == ensured.indexes
      && r.items - {StarName(TypeNameOf(arg))} == ensured.items - {StarName(TypeNameOf(arg))}
    ensures r.indexes - {TypeNameOf(arg)} == img.indexes - {TypeNameOf(arg)}
    ensures r.total == img.total
  {
    var typeName := TypeNameOf(arg);
    var ensured := EnsureCollection(img, typeName);
    var target := StarName(typeName);
    ensured.(items := ensured.items[target := Records(ensured, StringTypeName) + StampAllUpdated(newList, now)])
  }

  /** `UpdateCollection`: a replace on the image read from the backing file. */
  function UpdateCollection(f: ReadOutcome, arg: ListArgument, newList: seq<map<string, Value>>, now: Timestamp)
    : (r: Result<Image, string>)
    requires arg.SlicePointer? ==> |newList| > 0
    ensures r.Err? <==> f.Unreadable?
    ensures r.Ok? ==> r == Ok(Replace(ReadDatabase(f).value, arg, newList, now))
  {
    match GetCollections(f, TypeNameOf(arg))
    case Err(e) => Err(e)
    case Ok(_) => Ok(Replace(ReadDatabase(f).value, arg, newList, now))
  }

  /**
   With no collection named `"string"` (and a type name other than
   `"string"`), the stored list is exactly the stamped replacement list.
   */
  lemma ReplaceWithoutStringCollection(img: Image, arg: ListArgument, newList: seq<map<string, Value>>, now: Timestamp)
    requires arg.SlicePointer? ==> |newList| > 0
    requires StringTypeName !in img.items && TypeNameOf(arg) != StringTypeName
    ensures Records(Replace(img, arg, newList, now), StarName(TypeNameOf(arg))) == StampAllUpdated(newList, now)
  {
  }

  /**
   Replace semantics: after a replace, fetching the `"*"` collection gives back
   the supplied records, identities untouched, and nothing that was left out.
   */
  lemma ReplaceThenFetch(img: Image, elemTypeName: string, newList: seq<map<string, Value>>, now: Timestamp)
    requires |newList| > 0
    requires StringTypeName !in img.items && elemTypeName != StringTypeName
    ensures var fetched := GetFromCollection(Readable(Some(Replace(img, SlicePointer(elemTypeName), newList, now))),
                                             StarName(elemTypeName));
      && fetched.Ok?
      && |fetched.value| == |newList|
      && forall i :: 0 <= i < |newList| ==>
           fetched.value[i].Object? && fetched.value[i].fields - {"updated_at"} == newList[i] - {"updated_at"}
  {
    var written := Replace(img, SlicePointer(elemTypeName), newList, now);
    var stored := Records(written, StarName(elemTypeName));
    assert GetFromCollection(Readable(Some(written)), StarName(elemTypeName)) == Ok(stored);
    assert stored == StampAllUpdated(newList, now) by {
      ReplaceWithoutStringCollection(img, SlicePointer(elemTypeName), newList, now);
    }
    forall i | 0 <= i < |newList|
      ensures stored[i].Object? && stored[i].fields - {"updated_at"} == newList[i] - {"updated_at"}
    {
      StampUpdatedKeepsRest(newList[i], now);
    }
  }

  /** Stamping the update time changes no other field. */
  lemma StampUpdatedKeepsRest(rec: map<string, Value>, now: Timestamp)
    ensures StampUpdated(rec, now) - {"updated_at"} == rec - {"updated_at"}
  {
  }

  /** Round trip: a record created and then fetched comes back last, stamped and otherwise as given. */
  lemma CreateThenFetch(img: Image, name: string, rec: map<string, Value>, now: Timestamp)
    ensures var c := Create(img, name, rec, now);
      var fetched := GetFromCollection(Readable(Some(c.image)), name);
      && fetched == Ok(Records(img, name) + [Object(c.record)])
      && c.record - CreateStamps == rec - CreateStamps
  {
  }

  /** Corrupt-file recovery: an undecodable image takes a create on any collection, which mints "1". */
  lemma CorruptImageCreatesFirstIdentity(name: string, rec: map<string, Value>, now: Timestamp)
    ensures var r := WriteToCollection(Readable(None), name, rec, now);
      && r.Ok?
      && r.value.record["id"] == Str("1")
      && r.value.image.items == map[name := [Object(r.value.record)]]
      && r.value.image.indexes == map[name := 1]
  {
    assert Decimal.Itoa(1) == "1";
    var c := Create(EmptyImage, name, rec, now);
    assert WriteToCollection(Readable(None), name, rec, now) == Ok(c);
    assert c.image.items - {name} == map[];
    assert c.image.items[name] == [] + [Object(c.record)] == [Object(c.record)];
    assert c.image.items == map[name := [Object(c.record)]];
    assert c.image.indexes - {name} == map[];
    assert c.image.indexes == map[name := 1];
  }

  /** `count` creates in a row on one collection, front to back. */
  function CreateAll(img: Image, name: string, recs: seq<map<string, Value>>, now: Timestamp): Image
    decreases |recs|
  {
    if |recs| == 0 then img else CreateAll(Create(img, name, recs[0], now).image, name, recs[1..], now)
  }

  /** `f` applied to each element and the position it is minted at, counting on from `last`. */
  function Numbered<T, U>(xs: seq<T>, last: int, f: (T, int) -> U): seq<U>
    decreases |xs|
  {
    if |xs| == 0 then [] else [f(xs[0], last + 1)] + Numbered(xs[1..], last + 1, f)
  }

  /** Position `i` of a numbered run holds the `i`-th element numbered `last + i + 1`. */
  lemma {:induction false} NumberedAt<T, U>(xs: seq<T>, last: int, f: (T, int) -> U)
    ensures |Numbered(xs, last, f)| == |xs|
    ensures forall i :: 0 <= i < |xs| ==> Numbered(xs, last, f)[i] == f(xs[i], last + i + 1)
    decreases |xs|
  {
    if |xs| > 0 {
      var tail := Numbered(xs[1..], last + 1, f);
      NumberedAt(xs[1..], last + 1, f);
      forall i | 0 < i < |xs|
        ensures Numbered(xs, last, f)[i] == f(xs[i], last + i + 1)
      {
        assert Numbered(xs, last, f)[i] == tail[i - 1];
        assert xs[1..][i - 1] == xs[i];
      }
    }
  }

  /** A record stamped as the create that minted identity `n` at time `now` stores it. */
  function Minted(now: Timestamp): (map<string, Value>, int) -> Value {
    (rec: map<string, Value>, n: int) => Object(StampCreated(rec, Decimal.Itoa(n), now))
  }

  /** The records a run of creates appends when the counter starts at `last`. */
  function StampedRun(recs: seq<map<string, Value>>, last: int, now: Timestamp): seq<Value> {
    Numbered(recs, last, Minted(now))
  }

  lemma StampedRunAt(recs: seq<map<string, Value>>, last: int, now: Timestamp)
    ensures |StampedRun(recs, last, now)| == |recs|
    ensures forall i :: 0 <= i < |recs| ==>
      StampedRun(recs, last, now)[i] == Object(StampCreated(recs[i], Decimal.Itoa(last + i + 1), now))
  {
    NumberedAt(recs, last, Minted(now));
  }

  /** One create on an existing collection appends the record `Minted` at the next counter value. */
  lemma CreateStep(img: Image, name: string, rec: map<string, Value>, now: Timestamp)
    requires name in img.items
    ensures var c := Create(img, name, rec, now);
      && name in c.image.items
      && c.image.items[name] == img.items[name] + [Minted(now)(rec, Counter(img, name) + 1)]
      && Counter(c.image, name) == Counter(img, name) + 1
      && c.image.items - {name} == img.items - {name}
      && c.image.indexes - {name} == img.indexes - {name}
  {
  }

  /**
   A run of creates on an existing collection appends the stamped records in
   call order, minting `counter + 1`, `counter + 2`, ..., and advances the
   counter by the number of records.
   */
  lemma {:induction false} CreateAllAppends(img: Image, name: string, recs: seq<map<string, Value>>, now: Timestamp)
    requires name in img.items
    ensures var r := CreateAll(img, name, recs, now);
      && name in r.items
      && r.items[name] == img.items[name] + StampedRun(recs, Counter(img, name), now)
      && Counter(r, name) == Counter(img, name) + |recs|
    decreases |recs|
  {
    if |recs| > 0 {
      var last := Counter(img, name);
      var next := Create(img, name, recs[0], now).image;
      var first := Minted(now)(recs[0], last + 1);
      var tail := StampedRun(recs[1..], last + 1, now);
      var r := CreateAll(next, name, recs[1..], now);
      assert CreateAll(img, name, recs, now) == r;
      assert name in next.items && next.items[name] == img.items[name] + [first] && Counter(next, name) == last + 1 by {
        CreateStep(img, name, recs[0], now);
      }
      assert name in r.items && r.items[name] == next.items[name] + tail && Counter(r, name) == last + 1 + |recs[1..]| by {
        CreateAllAppends(next, name, recs[1..], now);
      }
      assert r.items[name] == img.items[name] + StampedRun(recs, last, now) by {
        assert StampedRun(recs, last, now) == [first] + tail;
        AppendThenConcat(img.items[name], first, tail);
      }
    }
  }

  lemma AppendThenConcat<T>(a: seq<T>, x: T, b: seq<T>)
    ensures (a + [x]) + b == a + ([x] + b)
  {
  }

  /** A run of creates on one collection leaves every other collection and counter as it was. */
  lemma {:induction false} CreateAllLeavesOthers(img: Image, name: string, recs: seq<map<string, Value>>, now: Timestamp)
    ensures var r := CreateAll(img, name, recs, now);
      && r.items - {name} == img.items - {name}
      && r.indexes - {name} == img.indexes - {name}
    decreases |recs|
  {
    if |recs| > 0 {
      var next := Create(img, name, recs[0], now).image;
      CreateAllLeavesOthers(next, name, recs[1..], now);
    }
  }

  /** Identity monotonicity: `N` creates on a new collection mint "1", "2", ..., "N" in call order. */
  lemma FreshCollectionIdentities(img: Image, name: string, recs: seq<map<string, Value>>, now: Timestamp)
    requires name !in img.items
    ensures var stored := Records(CreateAll(img, name, recs, now), name);
      && |stored| == |recs|
      && forall i :: 0 <= i < |recs| ==>
           stored[i] == Object(StampCreated(recs[i], Decimal.Itoa(i + 1), now))
  {
    StampedRunAt(recs, 0, now);
    if |recs| > 0 {
      var c := Create(img, name, recs[0], now);
      assert c.image.items[name] == [Object(c.record)];
      assert Counter(c.image, name) == 1;
      CreateAllAppends(c.image, name, recs[1..], now);
      assert StampedRun(recs, 0, now) == [Object(c.record)] + StampedRun(recs[1..], 1, now);
    }
  }
}

=== FILE: subsequences.dfy ===
/** Order-preserving selection, the shape shared by the filters of the router and the repository. */
module Subsequences {

  /** `a` is `b` with some elements dropped and the rest kept in order. */
  predicate IsSubsequence<T(==)>(a: seq<T>, b: seq<T>)
    decreases |b|
  {
    |a| == 0
    || (|b| > 0
        && ((a[|a| - 1] == b[|b| - 1] && IsSubsequence(a[..|a| - 1], b[..|b| - 1]))
            || IsSubsequence(a, b[..|b| - 1])))
  }

  /** An element passed through unchanged: `FilterMap` with it is a plain filter. */
  function Identity<T>(x: T): T {
    x
  }

  /** The elements `keep` admits, each passed through `f`, in their original order. */
  function FilterMap<T, U>(s: seq<T>, keep: T -> bool, f: T -> U): seq<U>
    decreases |s|
  {
    if |s| == 0 then []
    else
      var last := s[|s| - 1];
      FilterMap(s[..|s| - 1], keep, f) + (if keep(last) then [f(last)] else [])
  }

  /** Filtering distributes over concatenation, so earlier elements come out first. */
  lemma {:induction false} FilterMapConcat<T, U>(a: seq<T>, b: seq<T>, keep: T -> bool, f: T -> U)
    ensures FilterMap(a + b, keep, f) == FilterMap(a, keep, f) + FilterMap(b, keep, f)
    decreases |b|
  {
    if |b| > 0 {
      var ab := a + b;
      assert ab[..|ab| - 1] == a + b[..|b| - 1];
      assert ab[|ab| - 1] == b[|b| - 1];
      FilterMapConcat(a, b[..|b| - 1], keep, f);
    } else {
      assert a + b == a;
    }
  }

  /** An element is in the output iff it is the image of an admitted input element. */
  lemma {:induction false} FilterMapMembership<T, U>(s: seq<T>, keep: T -> bool, f: T -> U)
    ensures forall y :: y in FilterMap(s, keep, f) ==> exists i :: 0 <= i < |s| && keep(s[i]) && y == f(s[i])
    ensures forall i :: 0 <= i < |s| && keep(s[i]) ==> f(s[i]) in FilterMap(s, keep, f)
    decreases |s|
  {
    if |s| > 0 {
      var init := s[..|s| - 1];
      FilterMapMembership(init, keep, f);
      assert FilterMap(s, keep, f)
        == FilterMap(init, keep, f) + (if keep(s[|s| - 1]) then [f(s[|s| - 1])] else []);
      forall y | y in FilterMap(s, keep, f)
        ensures exists i :: 0 <= i < |s| && keep(s[i]) && y == f(s[i])
      {
        if y in FilterMap(init, keep, f) {
          var i :| 0 <= i < |init| && keep(init[i]) && y == f(init[i]);
          assert s[i] == init[i];
        } else {
          assert keep(s[|s| - 1]) && y == f(s[|s| - 1]);
        }
      }
      forall i | 0 <= i < |s| && keep(s[i])
        ensures f(s[i]) in FilterMap(s, keep, f)
      {
        if i < |init| {
          assert init[i] == s[i];
        }
      }
    }
  }

  /** With `f` the identity, filtering keeps the order of its input. */
  lemma {:induction false} FilterIsSubsequence<T>(s: seq<T>, keep: T -> bool, f: T -> T)
    requires forall x :: f(x) == x
    ensures IsSubsequence(FilterMap(s, keep, f), s)
    decreases |s|
  {
    if |s| > 0 {
      var init := s[..|s| - 1];
      var r := FilterMap(s, keep, f);
      FilterIsSubsequence(init, keep, f);
      if keep(s[|s| - 1]) {
        assert r[..|r| - 1] == FilterMap(init, keep, f);
      } else {
        assert r == FilterMap(init, keep, f);
        SubsequenceOfLonger(r, s);
      }
    }
  }

  lemma SubsequenceOfLonger<T>(a: seq<T>, b: seq<T>)
    requires |b| > 0 && IsSubsequence(a, b[..|b| - 1])
    ensures IsSubsequence(a, b)
  {
  }

  /** With `f` the identity, each value occurs as often as in the input if admitted, and not at all otherwise. */
  lemma {:induction false} FilterCounts<T>(s: seq<T>, keep: T -> bool, f: T -> T)
    requires forall x :: f(x) == x
    ensures forall x :: multiset(FilterMap(s, keep, f))[x] == (if keep(x) then multiset(s)[x] else 0)
    decreases |s|
  {
    if |s| > 0 {
      var init := s[..|s| - 1];
      assert s == init + [s[|s| - 1]];
      FilterCounts(init, keep, f);
    }
  }

  /** The positions of `s` that `keep` admits. */
  function AdmittedIndices<T>(s: seq<T>, keep: T -> bool): set<int> {
    set i | 0 <= i < |s| && keep(s[i])
  }

  /** The output has one element per admitted position. */
  lemma {:induction false} FilterMapCount<T, U>(s: seq<T>, keep: T -> bool, f: T -> U)
    ensures |FilterMap(s, keep, f)| == |AdmittedIndices(s, keep)|
    decreases |s|
  {
    if |s| > 0 {
      var n := |s| - 1;
      var init := s[..n];
      FilterMapCount(init, keep, f);
      var before := AdmittedIndices(init, keep);
      var after := AdmittedIndices(s, keep);
      if keep(s[n]) {
        assert after == before + {n};
      } else {
        assert after == before;
      }
    }
  }

  /** Filtering the output of a filter is one filter with both tests, the second applied after `f`. */
  lemma {:induction false} FilterMapThenFilter<T, U, V>(
    s: seq<T>, keep1: T -> bool, f: T -> U, keep2: U -> bool, g: U -> V, both: T -> bool, h: T -> V)
    requires forall x :: both(x) == (keep1(x) && keep2(f(x)))
    requires forall x :: h(x) == g(f(x))
    ensures FilterMap(FilterMap(s, keep1, f), keep2, g) == FilterMap(s, both, h)
    decreases |s|
  {
    if |s| > 0 {
      var init := s[..|s| - 1];
      var last := s[|s| - 1];
      FilterMapThenFilter(init, keep1, f, keep2, g, both, h);
      var tail := if keep1(last) then [f(last)] else [];
      FilterMapConcat(FilterMap(init, keep1, f), tail, keep2, g);
      if keep1(last) {
        assert FilterMap(tail, keep2, g) == FilterMap([], keep2, g) + (if keep2(f(last)) then [g(f(last))] else []);
      }
    }
  }

  /** When exactly one position is admitted, the output is the image of that position alone. */
  lemma FilterMapSingle<T, U>(s: seq<T>, keep: T -> bool, f: T -> U, i: int)
    requires i in AdmittedIndices(s, keep) && |AdmittedIndices(s, keep)| == 1
    ensures FilterMap(s, keep, f) == [f(s[i])]
  {
    FilterMapCount(s, keep, f);
    FilterMapMembership(s, keep, f);
    var out := FilterMap(s, keep, f);
    assert out[0] in out;
    var j :| 0 <= j < |s| && keep(s[j]) && out[0] == f(s[j]);
    if i != j {
      assert {i, j} <= AdmittedIndices(s, keep);
      assert |{i, j}| == 2;
    }
  }
}

=== FILE: text.dfy ===
/**
 The few pieces of Go's `strings` package the router relies on, over
 `string` = `seq<char>`.
 */
module Text {

  /** `strings.HasSuffix(s, "/")` for a one-character suffix. */
  predicate EndsWith(s: string, c: char) {
    |s| > 0 && s[|s| - 1] == c
  }

  /** `strings.HasPrefix(s, "*")` for a one-character prefix. */
  predicate StartsWith(s: string, c: char) {
    |s| > 0 && s[0] == c
  }

  /**
   `strings.Split(s, sep)` for a one-character separator: the maximal runs of
   non-separator characters between separators, so there is always one more
   piece than there are separators, and the empty string splits into `[""]`.
   */
  function Split(s: string, sep: char): (parts: seq<string>)
    ensures |parts| >= 1
    decreases |s|
  {
    if |s| == 0 then [""]
    else
      var rest := Split(s[1..], sep);
      if s[0] == sep then [""] + rest
      else [[s[0]] + rest[0]] + rest[1..]
  }

  /** `strings.Join(parts, sep)`: the inverse of `Split`. */
  function Join(parts: seq<string>, sep: char): string
    requires |parts| >= 1
    decreases |parts|
  {
    if |parts| == 1 then parts[0] else parts[0] + [sep] + Join(parts[1..], sep)
  }

  /** `strings.ReplaceAll(s, string(c), "")`: `s` with every `c` dropped. */
  function RemoveAll(s: string, c: char): (r: string)
    ensures c !in r
    ensures forall x :: x != c ==> multiset(r)[x] == multiset(s)[x]
    ensures c !in s ==> r == s
    decreases |s|
  {
    if |s| == 0 then ""
    else
      assert s == [s[0]] + s[1..];
      (if s[0] == c then "" else [s[0]]) + RemoveAll(s[1..], c)
  }

  /**
   Removal works piece by piece, so the kept characters stay in their order:
   with `RemoveAll`'s identity on `c`-free text, this fixes the result.
   */
  lemma {:induction false} RemoveAllConcat(a: string, b: string, c: char)
    ensures RemoveAll(a + b, c) == RemoveAll(a, c) + RemoveAll(b, c)
    decreases |a|
  {
    if |a| > 0 {
      assert (a + b)[1..] == a[1..] + b;
      assert (a + b)[0] == a[0];
      RemoveAllConcat(a[1..], b, c);
    } else {
      assert a + b == b;
    }
  }

  /** Splitting loses nothing: joining the pieces gives the string back. */
  lemma {:induction false} JoinSplit(s: string, sep: char)
    ensures Join(Split(s, sep), sep) == s
    decreases |s|
  {
    if |s| > 0 {
      var rest := Split(s[1..], sep);
      JoinSplit(s[1..], sep);
      if s[0] != sep && |rest| >= 2 {
        assert Join(rest, sep) == rest[0] + [sep] + Join(rest[1..], sep);
      }
    }
  }

  /** No piece of a split contains the separator. */
  lemma {:induction false} SplitPiecesHaveNoSeparator(s: string, sep: char)
    ensures forall i :: 0 <= i < |Split(s, sep)| ==> sep !in Split(s, sep)[i]
    decreases |s|
  {
    if |s| > 0 {
      SplitPiecesHaveNoSeparator(s[1..], sep);
    }
  }

  /** A trailing separator adds exactly one empty piece at the end. */
  lemma {:induction false} SplitAppendSeparator(s: string, sep: char)
    ensures Split(s + [sep], sep) == Split(s, sep) + [""]
    decreases |s|
  {
    if |s| == 0 {
      assert [sep][1..] == "";
    } else {
      assert (s + [sep])[1..] == s[1..] + [sep];
      SplitAppendSeparator(s[1..], sep);
    }
  }

  /** A string without the separator is a single piece. */
  lemma {:induction false} SplitWithoutSeparator(w: string, sep: char)
    requires sep !in w
    ensures Split(w, sep) == [w]
    decreases |w|
  {
    if |w| > 0 {
      SplitWithoutSeparator(w[1..], sep);
      assert w == [w[0]] + w[1..];
    }
  }

  /** Splitting at a separator splits each side independently. */
  lemma {:induction false} SplitAroundSeparator(a: string, b: string, sep: char)
    ensures Split(a + [sep] + b, sep) == Split(a, sep) + Split(b, sep)
    decreases |a|
  {
    var s := a + [sep] + b;
    if |a| == 0 {
      assert s[1..] == b;
    } else {
      assert s[1..] == a[1..] + [sep] + b;
      SplitAroundSeparator(a[1..], b, sep);
    }
  }

  /** Joining separator-free pieces and splitting again gives the pieces back. */
  lemma {:induction false} SplitJoin(parts: seq<string>, sep: char)
    requires |parts| >= 1
    requires forall i :: 0 <= i < |parts| ==> sep !in parts[i]
    ensures Split(Join(parts, sep), sep) == parts
    decreases |parts|
  {
    SplitWithoutSeparator(parts[0], sep);
    if |parts| > 1 {
      SplitJoin(parts[1..], sep);
      SplitAroundSeparator(parts[0], Join(parts[1..], sep), sep);
      assert parts == [parts[0]] + parts[1..];
    }
  }
}

=== FILE: values.dfy ===
/**
 Records as the store holds them after decoding its JSON image: field-keyed
 maps of dynamically typed values.  `Kind` mirrors the `reflect.Kind` that the
 equality filter compares before it compares values.
 */
module Values {

  /** A timestamp in the text form the JSON image carries (`time.Time` marshals to RFC 3339 text). */
  type Timestamp = string

  /** An IEEE 754 binary64 number, kept as its bit pattern. */
  datatype Float64 = Float64(bits: bv64)

  predicate IsNaN(x: Float64) {
    (x.bits >> 52) & 0x7FF == 0x7FF && x.bits & 0xF_FFFF_FFFF_FFFF != 0
  }

  predicate IsZero(x: Float64) {
    x.bits & 0x7FFF_FFFF_FFFF_FFFF == 0
  }

  /** IEEE equality, Go's `==` on `float64`: NaN equals nothing, and +0 equals -0. */
  predicate FloatEqual(a: Float64, b: Float64) {
    !IsNaN(a) && !IsNaN(b) && (a.bits == b.bits || (IsZero(a) && IsZero(b)))
  }

  /** A decoded JSON value; `Null` is Go's untyped nil. */
  datatype Value =
    | Null
    | Bool(b: bool)
    | Int(i: int)
    | Uint(u: nat)
    | Float(f: Float64)
    | Str(s: string)
    | List(elems: seq<Value>)
    | Object(fields: map<string, Value>)

  /** The dynamic kind of a non-nil value. */
  datatype Kind = KBool | KInt | KUint | KFloat | KString | KSlice | KMap

  /** `reflect.TypeOf(v).Kind()`; Go has no kind for nil, so neither does this. */
  function KindOf(v: Value): Kind
    requires !v.Null?
  {
    match v
    case Bool(_) => KBool
    case Int(_) => KInt
    case Uint(_) => KUint
    case Float(_) => KFloat
    case Str(_) => KString
    case List(_) => KSlice
    case Object(_) => KMap
  }
}

=== FILE: wrappers.dfy ===
/** Failure-carrying values shared by the store, the router and the repository. */
module Wrappers {

  /** A value that may be absent (a Go nil pointer or a missing map entry). */
  datatype Option<+T> = None | Some(value: T)

  /** Either a value or the error that replaced it (Go's `(T, error)` pair). */
  datatype Result<+T, +E> = Ok(value: T) | Err(error: E) {
    predicate IsFailure() {
      Err?
    }

    function PropagateFailure<U>(): Result<U, E>
      requires Err?
    {
      Err(error)
    }

    function Extract(): T
      requires Ok?
    {
      value
    }
  }
}
